=== FILE: README.md ===
# MTG pod system: distribution, roster and terminal rules in Dafny

This project models the core of a Magic: The Gathering pod organiser. A
roster of player names is shuffled and split into pods ("tables") of a
target size, within a maximum size and a nominal minimum of 3.

- `PodRandomizer` clamps the target and runs a balanced search over pod
  counts. If that finds nothing, it falls back to sequential chunking and
  merges a short remainder into the previous pod. It also computes
  statistics over a pod list and keeps an in-memory history.
- `PlayerManager` keeps the roster. It adds names with trimming and
  case-insensitive de-duplication, removes names case-sensitively,
  imports batches and searches by substring.
- The terminal front end adds a few pure rules:
  - the "at least 3 players" guard;
  - the clamps on typed sizes and on the size settings;
  - the bounded, oldest-first-evicted assignment history and its
    newest-first view.

Everything is functional. A state-changing method takes the old state and
returns its Python return value together with the new state.

Python semantics are written out where they differ from Dafny's:

- floor division and modulo (`PyOps.FloorDiv` and `PyOps.FloorMod`);
- clipped slices and negative slice bounds (`PyOps.Slice` and
  `PyOps.SliceFrom`);
- `max(lo, min(x, hi))` (`PyOps.Clamp`);
- `str.strip` with Python's whitespace set (`Text.Strip`).

`random.shuffle` is an argument: the caller passes any permutation
`shuffled` of the players, with `multiset(shuffled) == multiset(players)`.
Every property holds for every such permutation.

A `max_size` of 0 makes the pod-count computation divide by zero. The model
returns this as `Err(ZeroDivisionError)`, and the terminal commands report it
as `Crashed`.

Files:

- `wrappers.dfy`: `Option` and `Result`.
- `py_ops.dfy`: the Python primitives above.
- `pods.dfy`: `Pod`, the balanced search, the fallback, statistics and the
  randomizer's history.
- `pods_proofs.dfy`: properties that relate several parts of the
  distributor.
- `pods_examples.dfy`: worked examples.
- `text.dfy`: strip, lower-casing and the substring test.
- `players.dfy`: the roster.
- `terminal.dfy`: the front end's pure rules. It also holds `DefaultConfig`,
  the defaults of `core/data_storage.py:65-72` (4, 8, 3, auto-save on,
  history on, 50 entries).

Three facts about the distributor's code that the model makes explicit:

- **A balanced pod can hold fewer than 3 players.**
  `core/pod_randomizer.py:72-75` clamps the requested size to at least 3
  and then slices that many players from what is left; the slice is
  shorter when fewer remain. `PodsExamples.BalancedPodCanBeUndersized`
  exhibits it: 5 players with maximum 4 give pods of 3 and 2. No contract
  here claims `size >= 3`.
- **A zero maximum is an error.** `core/pod_randomizer.py:48` divides by
  `max_size`, so `max_size == 0` raises `ZeroDivisionError`.
- **The fallback runs only below the minimum.** The balanced search's
  result is taken at `core/pod_randomizer.py:84-86`, and the sequential
  fallback at `core/pod_randomizer.py:89-90` runs only when it found
  nothing. For `max_size >= 3` the first candidate is always accepted
  (`PodsProofs.FirstCandidateAccepted`). A negative `max_size` clamps
  every request to 3, and the count `ceil(n / 3)` then covers the players
  (`PodsProofs.NegativeMaximumNeverFallsBack`). So the fallback runs only
  for a `max_size` of 1 or 2 (`PodsProofs.FallbackOnlyBelowMinimum`). Reached that way it never merges
  (`PodsProofs.CreatePodsFallbackNeverMerges`).

## Model

| member | source | states |
|---|---|---|
| PyOps.Clamp | mtg_pod_system/core/pod_randomizer.py:72 | `max(lo, min(x, hi))` is at least `lo`, at most `hi` when `lo <= hi`, keeps in-range values, maps a value below `lo` to `lo` and one above `hi` to `hi`, and gives `lo` whenever the range is empty (`hi < lo`) |
| PyOps.FloorDiv | mtg_pod_system/core/pod_randomizer.py:48-49 | Python's `//` rounds towards negative infinity for either sign of divisor |
| PyOps.FloorMod | mtg_pod_system/core/pod_randomizer.py:57-58 | Python's `%` recombines with `//` to the dividend and takes the sign of the divisor |
| PyOps.Slice | mtg_pod_system/core/pod_randomizer.py:75 | a slice past the end is clipped and never longer than `hi - lo` |
| PyOps.SliceFrom | mtg_pod_system/interfaces/terminal_app.py:322 | `s[lo:]` with a negative `lo` keeps the last `-lo` elements, or all of them when the list is shorter |
| Pods.EffectiveTarget | mtg_pod_system/core/pod_randomizer.py:27 | the effective target is at least 3, within `[3, max_size]` when `max_size >= 3`, equals an in-range request, equals `max_size` for a larger one, and is 3 when the request is below 3 or `max_size` is below 3 |
| Pods.MinPods | mtg_pod_system/core/pod_randomizer.py:48 | for a positive maximum, `min_pods` is the fewest pods of at most `max_size` players that hold everyone: `max * (k - 1) < n <= max * k` |
| Pods.MaxPods | mtg_pod_system/core/pod_randomizer.py:49 | for a positive target, `max_pods` is the fewest pods of at most `target_size` players that hold everyone: `target * (k - 1) < n <= target * k` |
| Pods.CandidateEnd | mtg_pod_system/core/pod_randomizer.py:64-81 | the candidate loop's index never moves backwards |
| Pods.BuildCandidate | mtg_pod_system/core/pod_randomizer.py:61-81 | the pods built for one pod count hold exactly the consecutive slice of players from the start index to the final index, which is where the index lands after advancing by each clamped request; they record their true sizes and stay within `max_size` when it is at least 3; the pod at each position is stated by `Pods.BuildCandidatePods` |
| Pods.BuildCandidatePods | mtg_pod_system/core/pod_randomizer.py:64-81 | when every request is non-empty, the inner loop makes one pod per position `i`, with id `i + 1`, holding the slice that starts where the earlier positions left the index and asks for `max(3, min(request, max))` players |
| Pods.Candidate | mtg_pod_system/core/pod_randomizer.py:56-81 | one candidate's pods are the prefix of the players up to its final index, with true sizes, within `max_size` when it is at least 3; for `k <= n` there are exactly `k` pods and pod `j` has id `j + 1` and is `players[start_j : start_j + max(3, min(n // k + (1 if j < n % k else 0), max))]`, `start_j` being the sum of the earlier clamped requests |
| Pods.CandidatePods | mtg_pod_system/core/pod_randomizer.py:56-81 | the per-pod statement of a candidate, from the first pod on: `k` pods, pod `j` the clamped share of `n // k` (plus one below `n % k`) sliced at `start_j` |
| Pods.Search | mtg_pod_system/core/pod_randomizer.py:52-86 | the search returns nothing exactly when no pod count in the range (skipping 0) has its loop index reach the player count; otherwise it returns the pods of the FIRST such count, which use every player exactly once, in order, with true sizes, within `max_size` when it is at least 3 |
| Pods.CalculateDistribution | mtg_pod_system/core/pod_randomizer.py:41-92 | fails exactly when `max_size == 0`; otherwise the pods concatenate to the input with true sizes, and are non-empty for a non-empty input |
| Pods.SimpleLoop | mtg_pod_system/core/pod_randomizer.py:100-125 | the fallback loop never drops a pod and makes at least one when players are left; its full outcome is `Pods.SimpleLoopCorrect` |
| Pods.SimpleLoopCorrect | mtg_pod_system/core/pod_randomizer.py:100-125 | the fallback loop, from any state satisfying its invariant, ends with every player exactly once, in order, true sizes, ids `1..k`, and every pod but the last holding exactly the target |
| Pods.SimpleMergeStep | mtg_pod_system/core/pod_randomizer.py:106-111 | merging the short remainder into the last pod completes the fallback's guarantee |
| Pods.SimpleChunkStep | mtg_pod_system/core/pod_randomizer.py:113-125 | emitting one chunk keeps the fallback loop's invariant |
| Pods.SimpleDistribution | mtg_pod_system/core/pod_randomizer.py:94-127 | the fallback conserves the players in order, records true sizes, numbers pods from 1, fills every pod but the last to the target, and makes at least one pod from a non-empty input |
| Pods.SizesOf | mtg_pod_system/core/pod_randomizer.py:135 | the size list has one entry per pod, in pod order |
| Pods.SeqMin | mtg_pod_system/core/pod_randomizer.py:141 | `min` is a lower bound that occurs in the list |
| Pods.SeqMax | mtg_pod_system/core/pod_randomizer.py:142 | `max` is an upper bound that occurs in the list |
| Pods.GetStatistics | mtg_pod_system/core/pod_randomizer.py:129-144 | no pods give zero counts and a zero average; otherwise the total is the sum of sizes, the count is the number of pods, min and max bound every size and are attained, and the average times the count is the total |
| Pods.PodRandomizer.CreatePods | mtg_pod_system/core/pod_randomizer.py:21-39 | an empty roster gives no pods and leaves history alone; otherwise the result fails exactly when `max_size == 0`; success means the pods concatenate to the shuffled list, hence are a permutation of the roster, with true sizes, and are appended to the history; a failure changes nothing |
| Pods.PodRandomizer.ClearHistory | mtg_pod_system/core/pod_randomizer.py:150-152 | the history is empty afterwards |
| Pods.PodRandomizer.GetHistory | mtg_pod_system/core/pod_randomizer.py:146-148 | reads back the log: `Pods.PodRandomizer.CreatePods` states that a successful assignment is appended to it and a failure leaves it alone, `Pods.PodRandomizer.ClearHistory` that clearing empties it, and `PodsProofs.ClearThenCreate` that the next assignment is then its only entry |
| PodsProofs.FirstCandidateArithmetic | mtg_pod_system/core/pod_randomizer.py:48-66 | for `n >= 1` and a positive maximum, `k = ceil(n / max)` lies in `[1, n]` and every requested size `n // k` or `n // k + 1` is between 1 and `max` |
| PodsProofs.PodRangeNonEmpty | mtg_pod_system/core/pod_randomizer.py:48-52 | the search range `ceil(n/max)..ceil(n/target)` is non-empty when `1 <= target <= max` |
| PodsProofs.CandidateCoverage | mtg_pod_system/core/pod_randomizer.py:64-84 | when no request exceeds the maximum, the candidate's final index reaches at least the sum of the requested sizes |
| PodsProofs.CandidateEndExact | mtg_pod_system/core/pod_randomizer.py:64-81 | when every request is between 3 and `max`, the loop index after positions `[i, m)` is exactly `base` per position plus one for each position below the remainder |
| PodsProofs.FirstCandidateCovers | mtg_pod_system/core/pod_randomizer.py:52-86 | the first pod count reaches the end of the players with exactly `k` pods numbered `1..k` |
| PodsProofs.FirstCandidateSizes | mtg_pod_system/core/pod_randomizer.py:52-81 | when the first pod count's share `n // k` is at least 3 the pods split the players evenly in order: pod `j` is `players[j*base + min(j, rem) :][:base + (1 if j < rem else 0)]`, so 9 players with maximum 4 give 3, 3, 3 |
| PodsProofs.FirstCandidateAccepted | mtg_pod_system/core/pod_randomizer.py:48-92 | with `n >= 1` and `max >= 3` the first candidate is accepted: `ceil(n/max)` pods, ids `1..k`, none above `max`, fallback not taken |
| PodsProofs.FallbackOnlyBelowMinimum | mtg_pod_system/core/pod_randomizer.py:88-90 | the fallback is reached from a clamped target only when `max_size` is 1 or 2 |
| PodsProofs.NegativeMaximumNeverFallsBack | mtg_pod_system/core/pod_randomizer.py:48-90 | with a negative maximum every request is clamped to 3, the range starts at or below 1, and `ceil(n / 3)` covers, so the balanced search succeeds and the fallback is not taken |
| PodsProofs.CandidateEndAllThree | mtg_pod_system/core/pod_randomizer.py:64-81 | with a maximum below 3 and non-empty requests, each pod advances the index by exactly 3 |
| PodsProofs.TargetDoesNotMatter | mtg_pod_system/core/pod_randomizer.py:21-39 | the result of `create_pods`, pods and history, is the same for any two requested target sizes |
| PodsProofs.SimpleLoopShape | mtg_pod_system/core/pod_randomizer.py:100-125 | from any loop state the number of pods and the size of the last pod follow the closed form of `FallbackCount` and `FallbackLast` |
| PodsProofs.FallbackShape | mtg_pod_system/core/pod_randomizer.py:94-127 | for target `t >= 3`, every fallback pod but the last holds `t`; with `q = n // t` and `rr = n % t`: no remainder gives `q` full pods; a remainder of 3 or more, or no full pod to merge into, becomes its own last pod; a remainder of 1 or 2 joins the last full pod exactly when `t + rr <= max`, and otherwise stays an undersized last pod |
| PodsProofs.FallbackWithinMax | mtg_pod_system/core/pod_randomizer.py:106-111 | with `3 <= t <= max` no fallback pod exceeds `max` |
| PodsProofs.CreatePodsFallbackNeverMerges | mtg_pod_system/core/pod_randomizer.py:88-111 | when the fallback is reached from `create_pods` it is the result, and no pod exceeds the target |
| PodsProofs.CreatePodsBalanced | mtg_pod_system/core/pod_randomizer.py:21-39 | for a non-empty roster and `max >= 3`, `create_pods` returns the first candidate `k = ceil(n/max)`: the shuffled players cut into `k` consecutive pods with ids `1..k`, pod `j` being the slice at `start_j` of its clamped share of `n // k` (plus one below `n % k`), none above `max`, with true sizes, appended to the history |
| PodsProofs.CreatePodsEvenSplit | mtg_pod_system/core/pod_randomizer.py:21-39 | when the share `n // k` is at least 3, `create_pods` gives pod `j` exactly the shuffled players `[j*base + min(j, rem), +base + (1 if j < rem else 0))` |
| Pods.SumSizes | mtg_pod_system/core/pod_randomizer.py:134 | the sum of recorded sizes equals the number of players held, when sizes are true |
| PodsProofs.StatisticsOfCreatedPods | mtg_pod_system/core/pod_randomizer.py:129-144 | the statistics of created pods count every roster player once, and report no pods exactly for an empty roster |
| PodsProofs.ClearThenCreate | mtg_pod_system/core/pod_randomizer.py:146-152 | after clearing, the next assignment is the only history entry |
| PodsExamples.BalancedPodCanBeUndersized | mtg_pod_system/core/pod_randomizer.py:66-80 | 5 players with target and maximum 4 give pods of 3 and 2 players: the balanced path can go below 3 |
| PodsExamples.NinePlayersMaxFour | mtg_pod_system/core/pod_randomizer.py:52-81 | 9 players with maximum 4 give pods `shuffled[0:3]`, `shuffled[3:6]` and `shuffled[6:9]` for every shuffle |
| PodsExamples.ThreePlayersOnePod | mtg_pod_system/core/pod_randomizer.py:21-39 | 3 players always make one pod of all three, for any maximum of at least 3 |
| PodsExamples.FallbackKeepsUndersizedRemainder | mtg_pod_system/core/pod_randomizer.py:105-115 | with maximum 1 the search range is empty, and the remainder of 2 becomes its own pod because merging would exceed the maximum |
| PodsExamples.FallbackMergesRemainder | mtg_pod_system/core/pod_randomizer.py:105-111 | 7 players with target 3 and maximum 4 give pods of 3 and 4: the single leftover player joins the previous pod |
| PodsExamples.StatisticsExample | mtg_pod_system/core/pod_randomizer.py:129-144 | pods of sizes 4, 3, 5 give 3 pods, 12 players, average 12/3, min 3, max 5 |
| Text.TrimLeft | mtg_pod_system/core/player_manager.py:23 | the leading whitespace is dropped: what remains is a suffix starting at a non-space |
| Text.TrimRight | mtg_pod_system/core/player_manager.py:23 | the trailing whitespace is dropped: what remains is a prefix ending at a non-space |
| Text.Strip | mtg_pod_system/core/player_manager.py:23 | `strip()` never lengthens a string, and a non-empty result starts and ends with a non-space |
| Text.StripIsTrimmedSlice | mtg_pod_system/core/player_manager.py:23 | `strip()` returns a contiguous part of the name with only whitespace around it, and is empty exactly for an all-whitespace name |
| Text.StripIdempotent | mtg_pod_system/core/player_manager.py:82 | stripping an already stripped name changes nothing |
| Text.LowerChar | mtg_pod_system/core/player_manager.py:27 | lower-casing a character leaves no upper-case ASCII letter and changes no other character |
| Text.Lower | mtg_pod_system/core/player_manager.py:27 | lower-casing keeps the length, maps every upper-case ASCII letter to its lower-case partner, and keeps every other character |
| Text.ContainsIffOccurs | mtg_pod_system/core/player_manager.py:91 | `q in s` holds exactly when `q` occurs at some position of `s` |
| Players.CleanIsStripped | mtg_pod_system/core/player_manager.py:23-30 | a stored name has no whitespace at its ends exactly when it is non-empty and unchanged by `strip()` |
| Players.Known | mtg_pod_system/core/player_manager.py:27 | the duplicate test; `Players.KnownIffInLowered` shows it is membership of the lower-cased name among the lower-cased entries |
| Players.LowerAll | mtg_pod_system/core/player_manager.py:27 | `[p.lower() for p in players]` has one entry per player, each its lower-cased name |
| Players.KnownIffInLowered | mtg_pod_system/core/player_manager.py:27 | a name is known exactly when its lower-cased form is among the lower-cased roster entries |
| Players.AddPlayer | mtg_pod_system/core/player_manager.py:21-31 | succeeds exactly for a non-empty stripped name not already present in any letter case, appending the stripped name; otherwise nothing changes; the name is known afterwards; a well-formed roster stays well-formed |
| Players.IndexOf | mtg_pod_system/core/player_manager.py:37 | the position found holds the name and no earlier position does |
| Players.RemoveFirst | mtg_pod_system/core/player_manager.py:37 | `list.remove` deletes exactly the first occurrence |
| Players.RemovePlayer | mtg_pod_system/core/player_manager.py:33-39 | succeeds exactly when the stripped name is present case-sensitively; then only its first occurrence is removed, the length drops by one and the multiset loses one copy; otherwise nothing changes; the roster invariant is kept |
| Players.GetPlayers | mtg_pod_system/core/player_manager.py:41-43 | returns the roster by value; `Players.CountTracksChanges` states it |
| Players.GetPlayerCount | mtg_pod_system/core/player_manager.py:45-47 | the number of players; `Players.CountTracksChanges` states how adds and removes move it |
| Players.ClearPlayers | mtg_pod_system/core/player_manager.py:49-51 | empties the roster; `Players.CountTracksChanges` states that the count is then 0 and the roster well-formed |
| Players.ImportPlayers | mtg_pod_system/core/player_manager.py:78-86 | the count returned is the growth of the roster; old entries are kept in front; the new entries are a subsequence of the stripped input, in input order; every non-blank name is known afterwards; a well-formed roster stays well-formed, so no name is added twice in any letter case, even within one batch; which names are appended, exactly, is `Players.ImportAppendsAdmitted` |
| Players.ImportAddsFreshNames | mtg_pod_system/core/player_manager.py:81-85 | for any roster, well-formed or not, an import appends only names the roster did not know, and never two names equal ignoring case, even when the batch repeats one |
| Players.ImportAppendsAdmitted | mtg_pod_system/core/player_manager.py:78-86 | an import appends exactly the admitted names, in batch order, and counts them: a stripped name at batch position `j` is appended if and only if it is non-blank, no roster entry equals it ignoring case, and no earlier batch name equals it ignoring case, so the first spelling is kept |
| Players.RepeatKeepsFirstSpelling | mtg_pod_system/core/player_manager.py:81-85 | a batch whose second name repeats a new first name in another letter case adds the first spelling alone and counts one |
| Players.SearchPlayers | mtg_pod_system/core/player_manager.py:88-91 | the result is the order-preserving filter of the roster by case-insensitive substring match: every result matches, and every matching entry appears as often as in the roster |
| Players.AddThenRemove | mtg_pod_system/core/player_manager.py:21-39 | removing a name right after adding it succeeds and restores the roster |
| Players.AddIsIdempotent | mtg_pod_system/core/player_manager.py:27-28 | once a name is added, adding it again in any letter case is refused and changes nothing |
| Players.CountTracksChanges | mtg_pod_system/core/player_manager.py:41-51 | the count rises by one exactly on a successful add and falls by one exactly on a successful remove; clearing gives an empty roster; `get_players` equals the roster |
| Players.EmptyQueryFindsAll | mtg_pod_system/core/player_manager.py:88-91 | the empty query returns the whole roster |
| TerminalApp.TrimHistory | mtg_pod_system/interfaces/terminal_app.py:320-322 | with a positive limit only the most recent entries, up to the limit, are kept; a zero limit keeps everything; a negative one drops that many entries from the front |
| TerminalApp.SaveToHistory | mtg_pod_system/interfaces/terminal_app.py:316-322 | after a save the new entry is last; nothing is dropped while within the limit; beyond it exactly the oldest entries go |
| TerminalApp.FifoEviction | mtg_pod_system/interfaces/terminal_app.py:316-322 | any sequence of saves, starting within the limit, leaves exactly the most recent entries up to the limit |
| TerminalApp.TimestampText | mtg_pod_system/interfaces/terminal_app.py:338 | the displayed time is the first 19 characters, or the whole stamp when shorter; a `T` there is shown as a space, every other character is shown as it is, and no `T` remains |
| TerminalApp.HistoryView | mtg_pod_system/interfaces/terminal_app.py:337-342 | the view lists the last 10 entries newest first, numbered from 1, each with its pod count and the sum of its pod sizes |
| TerminalApp.LineOf | mtg_pod_system/interfaces/terminal_app.py:338-340 | one history row carries its number, the pod count, the shown time of at most 19 characters, and a player count equal to the number of players held when the recorded sizes are true |
| TerminalApp.DefaultConfigIsSettled | mtg_pod_system/core/data_storage.py:65-72 | the defaults are 4, 8, 3, history on with 50 entries; storing the default size or the maximum again through the settings menu changes nothing, and an answer that is not a number gives the default size 4 |
| TerminalApp.CollectNames | mtg_pod_system/interfaces/terminal_app.py:146-151 | the names collected are the stripped lines before the first blank one, none of them empty |
| TerminalApp.AddMultiple | mtg_pod_system/interfaces/terminal_app.py:143-158 | adding several names keeps old entries in front and appends exactly the admitted typed names (`Players.AdmittedNames`): a subsequence of the typed names, each unknown to the roster before and distinct from the others ignoring case; the count reported is the growth; every typed name is known afterwards; the roster stays well-formed |
| TerminalApp.RequestedPodSize | mtg_pod_system/interfaces/terminal_app.py:237-241 | a typed size is clamped into `[3, max_pod_size]`: kept when in range, 3 when below 3 or when the maximum is below 3, the maximum when above it; a non-number gives the default size |
| TerminalApp.SetDefaultPodSize | mtg_pod_system/interfaces/terminal_app.py:361-367 | a typed default size is stored clamped into `[3, 8]`: kept when in range, 3 when below, 8 when above; a non-number leaves the settings unchanged; no other setting changes |
| TerminalApp.SetMaxPodSize | mtg_pod_system/interfaces/terminal_app.py:372-378 | a typed maximum is stored clamped into `[4, 8]`: kept when in range, 4 when below, 8 when above; a non-number leaves the settings unchanged; no other setting changes |
| TerminalApp.ToggleKeepHistory | mtg_pod_system/interfaces/terminal_app.py:383 | the history switch flips and nothing else changes |
| TerminalApp.RandomizeAndRecord | mtg_pod_system/interfaces/terminal_app.py:245-251 | after the guard, pods are created from the roster's shuffle, hold every roster player once with true sizes, and are recorded in the stored history exactly when history keeping is on; roster and settings are untouched; a zero maximum crashes with nothing changed |
| TerminalApp.CreatePodsCommand | mtg_pod_system/interfaces/terminal_app.py:223-253 | the command is refused, with nothing changed, exactly when fewer than 3 players exist; otherwise it crashes exactly for a zero maximum, and a created assignment holds every roster player once with true sizes; the typed size is passed on but cannot change the pods (`PodsProofs.TargetDoesNotMatter`) |
| TerminalApp.QuickRandomizeCommand | mtg_pod_system/interfaces/terminal_app.py:279-298 | the same guard and outcomes as `create_pods`, with the configured default size passed on |
| TerminalApp.CommandsRespectMaximum | mtg_pod_system/interfaces/terminal_app.py:223-298 | with at least 3 players and a maximum of at least 3, both commands create `ceil(n / max)` pods numbered from 1, none above the maximum |
| TerminalApp.CreatedAssignmentHeadsTheView | mtg_pod_system/interfaces/terminal_app.py:300-342 | with history on, a non-negative history limit, at least 3 players and a non-zero maximum, `create_pods` succeeds and its assignment is listed first in the history view, with its pod count and every roster player counted once |

## Left out

- File I/O is not modelled, with all of `core/data_storage.py` except its default configuration. This covers JSON files, backups, export and import; the players-file save and load in `core/player_manager.py:53-76`; and the stored-history round trip in the terminal. A loaded roster need not be well-formed, which is why the roster invariant is stated as preserved, not assumed.
- `utils/sync_utils.py` and `main.py` are not part of this model. They handle file shuttling, an HTTP server, threads and a browser launcher.
- The Rich rendering, prompts, menus, backup and data menus and `display_pods` formatting are not modelled. Prompts are replaced by their parsed results.
- `random.shuffle` is replaced by a caller-supplied permutation. The model says nothing about the distribution of shuffles.
- `datetime.now().isoformat()` is a parameter `timestamp`.
- `int()` parsing of typed sizes is modelled as `Option<int>`, with `None` for a `ValueError`. Which strings parse is not modelled.
- Pods.GetStatistics: the average is an exact `Ratio(total, count)`, not Python's float, and `.1f` rounding is not modelled.
- Text.Lower: only ASCII `A`-`Z` are lowered. Python also lower-cases other Unicode letters, and some of them change length.
- Text.Strip: the whitespace set is Python's `str.isspace` for single code points. Nothing is normalised.
- TerminalApp.CollectNames: the typed lines are a finite sequence. If no blank line occurs, all of them are used. The prompt loop itself, which only ends at a blank line, is not modelled.
- TerminalApp.CreatePodsCommand: the `ZeroDivisionError` from a zero maximum is reported as `Crashed`. How the surrounding program reacts to the exception is not modelled.
- `get_history`, `get_players` and `get_player_count` return the value itself. A Python copy is equal by value, and aliasing is not modelled.
- Pods.CalculateDistribution: requires a target of at least 1. The only caller, `create_pods`, clamps the target to at least 3 first. With a target of 0 Python divides by zero, and with a negative one the fallback loop never ends; neither case is modelled.
- Pods.PodRandomizer.CreatePods: Python's default arguments `target_size=4, max_size=8` (`core/pod_randomizer.py:21`) are not modelled; every caller passes both.
- Pods.MinPods: the ceiling is stated for a positive `max_size` only; for a negative one only the floor-division facts of `PyOps.FloorDiv` apply.
- Pods.MaxPods: the ceiling is stated for a positive target only; `create_pods` clamps the target to at least 3 before this line, so no other target reaches it.
- Pods.SimpleLoop: its own contract states only that no pod is dropped; the pods it returns are described by `Pods.SimpleLoopCorrect` and `PodsProofs.SimpleLoopShape`.
- Pods.CandidateEnd: its contract states only that the index does not move backwards. Its value is pinned by `Pods.BuildCandidate`, bounded by `PodsProofs.CandidateCoverage`, and given in closed form by `PodsProofs.CandidateEndExact` when no clamp applies.

=== FILE: players.dfy ===
/** The player roster: an ordered list of names with trimmed,
    case-insensitively unique entries. Every operation takes the roster and
    returns the new one together with the value the Python method returns. */
module Players {
  import opened Text

  /** Some roster entry equals `name` after lower-casing both. */
  predicate Known(roster: seq<string>, name: string)
  {
    exists i :: 0 <= i < |roster| && Lower(roster[i]) == Lower(name)
  }

  /** `[p.lower() for p in players]`. */
  function LowerAll(roster: seq<string>): (r: seq<string>)
    ensures |r| == |roster|
    ensures forall j :: 0 <= j < |roster| ==> r[j] == Lower(roster[j])
  {
    seq(|roster|, j requires 0 <= j < |roster| => Lower(roster[j]))
  }

  /** `Known` is the duplicate test `name.lower() in [p.lower() for p in
      players]`. */
  lemma KnownIffInLowered(roster: seq<string>, name: string)
    ensures Known(roster, name) <==> Lower(name) in LowerAll(roster)
  {
    var lowered := LowerAll(roster);
    if Lower(name) in lowered {
      var i :| 0 <= i < |lowered| && lowered[i] == Lower(name);
      assert Lower(roster[i]) == Lower(name);
    }
  }

  /** The roster invariant the add and import operations keep: every name is
      non-empty and already stripped, and no two names are equal ignoring
      case. */
  predicate WellFormed(roster: seq<string>)
  {
    && (forall i :: 0 <= i < |roster| ==> CleanName(roster[i]))
    && (forall i, j :: 0 <= i < j < |roster| ==> Lower(roster[i]) != Lower(roster[j]))
  }

  /** A name as `add_player` stores it: non-empty, with no whitespace at
      either end (so stripping leaves it unchanged, see `CleanIsStripped`). */
  predicate CleanName(name: string)
  {
    name != [] && !IsSpace(name[0]) && !IsSpace(name[|name| - 1])
  }

  /** A clean name is exactly a non-empty name that `strip()` leaves
      unchanged. */
  lemma CleanIsStripped(name: string)
    ensures CleanName(name) <==> name != [] && Strip(name) == name
  {
    if CleanName(name) {
      assert TrimLeft(name) == name;
      assert TrimRight(name) == name;
      assert Strip(name) == name;
    }
    if name != [] && Strip(name) == name {
      assert !IsSpace(Strip(name)[0]);
    }
  }

  /** `add_player`: strip the name, refuse an empty or case-insensitively
      known one, otherwise append it. Returns whether it was added and the
      new roster. */
  function AddPlayer(roster: seq<string>, name: string): (r: (bool, seq<string>))
    ensures r.0 <==> Strip(name) != [] && !Known(roster, Strip(name))
    ensures r.0 ==> r.1 == roster + [Strip(name)]
    ensures !r.0 ==> r.1 == roster
    ensures Strip(name) != [] ==> Known(r.1, Strip(name))
    ensures WellFormed(roster) ==> WellFormed(r.1)
  {
    var n := Strip(name);
    if n == [] then (false, roster)
    else if Known(roster, n) then (false, roster)
    else
      AppendUnknown(roster, n);
      (true, roster + [n])
  }

  /** Appending a clean, unknown name keeps the roster well formed and
      makes the name known. */
  lemma AppendUnknown(roster: seq<string>, n: string)
    requires CleanName(n) && !Known(roster, n)
    ensures Known(roster + [n], n)
    ensures WellFormed(roster) ==> WellFormed(roster + [n])
  {
    var r := roster + [n];
    assert Lower(r[|roster|]) == Lower(n);
    if WellFormed(roster) {
      forall i | 0 <= i < |r|
        ensures CleanName(r[i])
      {
        if i < |roster| {
          assert r[i] == roster[i];
        }
      }
      forall i, j | 0 <= i < j < |r|
        ensures Lower(r[i]) != Lower(r[j])
      {
        if j < |roster| {
          assert r[i] == roster[i] && r[j] == roster[j];
        } else {
          assert r[i] == roster[i];
        }
      }
    }
  }

  /** Index of the first occurrence of `x` in `s`. */
  function IndexOf(s: seq<string>, x: string): (i: nat)
    requires x in s
    ensures i < |s| && s[i] == x
    ensures forall j :: 0 <= j < i ==> s[j] != x
  {
    if s[0] == x then 0 else 1 + IndexOf(s[1..], x)
  }

  /** Python's `list.remove(x)`: drops the first occurrence of `x`. */
  function RemoveFirst(s: seq<string>, x: string): (r: seq<string>)
    requires x in s
    ensures r == s[..IndexOf(s, x)] + s[IndexOf(s, x) + 1..]
  {
    if s[0] == x then s[1..]
    else
      var k := IndexOf(s[1..], x);
      ConsSplit(s, k);
      [s[0]] + RemoveFirst(s[1..], x)
  }

  lemma ConsSplit(s: seq<string>, k: int)
    requires 0 <= k && k + 1 < |s|
    ensures [s[0]] + (s[1..][..k] + s[1..][k + 1..]) == s[..k + 1] + s[k + 2..]
  {
    assert s[1..][..k] == s[1..k + 1];
    assert s[1..][k + 1..] == s[k + 2..];
    assert s[..k + 1] == [s[0]] + s[1..k + 1];
  }

  /** `r` is `roster` without its entry at `i`, the first entry equal to
      `x`. */
  predicate RemovedFirstAt(roster: seq<string>, x: string, i: int, r: seq<string>)
  {
    && 0 <= i < |roster| && roster[i] == x
    && (forall j :: 0 <= j < i ==> roster[j] != x)
    && r == roster[..i] + roster[i + 1..]
  }

  /** `remove_player`: strip the name and, if it is in the roster exactly
      (case-sensitive), remove its first occurrence. */
  function RemovePlayer(roster: seq<string>, name: string): (r: (bool, seq<string>))
    ensures r.0 <==> Strip(name) in roster
    ensures r.0 ==> |r.1| == |roster| - 1
    ensures r.0 ==> multiset(r.1) == multiset(roster) - multiset{Strip(name)}
    ensures r.0 ==> exists i :: RemovedFirstAt(roster, Strip(name), i, r.1)
    ensures !r.0 ==> r.1 == roster
    ensures WellFormed(roster) ==> WellFormed(r.1)
  {
    var n := Strip(name);
    if n in roster then
      RemoveFirstFacts(roster, n);
      (true, RemoveFirst(roster, n))
    else (false, roster)
  }

  /** What removing the first occurrence of a present name does. */
  lemma RemoveFirstFacts(roster: seq<string>, n: string)
    requires n in roster
    ensures var r := RemoveFirst(roster, n);
            && |r| == |roster| - 1
            && multiset(r) == multiset(roster) - multiset{n}
            && RemovedFirstAt(roster, n, IndexOf(roster, n), r)
            && (WellFormed(roster) ==> WellFormed(r))
  {
    var i := IndexOf(roster, n);
    var r := RemoveFirst(roster, n);
    RemoveAtFacts(roster, i, r);
  }

  /** Deleting one entry shrinks the multiset by that entry and keeps the
      roster invariant. */
  lemma RemoveAtFacts(roster: seq<string>, i: int, r: seq<string>)
    requires 0 <= i < |roster| && r == roster[..i] + roster[i + 1..]
    ensures multiset(r) == multiset(roster) - multiset{roster[i]}
    ensures WellFormed(roster) ==> WellFormed(r)
  {
    assert roster == roster[..i] + [roster[i]] + roster[i + 1..];
    assert multiset(roster) == multiset(roster[..i]) + multiset{roster[i]} + multiset(roster[i + 1..]);
    if WellFormed(roster) {
      RemoveAtWellFormed(roster, i, r);
    }
  }

  lemma RemoveAtWellFormed(roster: seq<string>, i: int, r: seq<string>)
    requires 0 <= i < |roster| && r == roster[..i] + roster[i + 1..]
    requires WellFormed(roster)
    ensures WellFormed(r)
  {
    assert forall a :: 0 <= a < |r| ==> r[a] == roster[if a < i then a else a + 1];
    forall a, b | 0 <= a < b < |r|
      ensures Lower(r[a]) != Lower(r[b])
    {
      var a' := if a < i then a else a + 1;
      var b' := if b < i then b else b + 1;
      assert r[a] == roster[a'] && r[b] == roster[b'];
    }
  }

  /** `get_players`: a copy of the roster. */
  function GetPlayers(roster: seq<string>): seq<string>
  {
    roster
  }

  /** `get_player_count`. */
  function GetPlayerCount(roster: seq<string>): nat
  {
    |roster|
  }

  /** `clear_players`. */
  function ClearPlayers(roster: seq<string>): seq<string>
  {
    []
  }

  /** The stripped form of every name, in order. */
  function StripAll(names: seq<string>): (r: seq<string>)
    ensures |r| == |names|
    ensures forall j :: 0 <= j < |names| ==> r[j] == Strip(names[j])
  {
    seq(|names|, j requires 0 <= j < |names| => Strip(names[j]))
  }

  /** `a` is a subsequence of `b`: `b` with some elements deleted. */
  predicate IsSubsequence(a: seq<string>, b: seq<string>)
    decreases |b|
  {
    |a| == 0 || (|b| > 0 && ((a[0] == b[0] && IsSubsequence(a[1..], b[1..])) || IsSubsequence(a, b[1..])))
  }

  /** A subsequence is never longer than the sequence it is taken from. */
  lemma {:induction false} SubsequenceLength(a: seq<string>, b: seq<string>)
    requires IsSubsequence(a, b)
    ensures |a| <= |b|
    decreases |b|
  {
    if |a| > 0 {
      if a[0] == b[0] && IsSubsequence(a[1..], b[1..]) {
        SubsequenceLength(a[1..], b[1..]);
      } else {
        SubsequenceLength(a, b[1..]);
      }
    }
  }

  /** Knowing a name is preserved by appending to the roster. */
  lemma KnownGrows(roster: seq<string>, extra: seq<string>, name: string)
    requires Known(roster, name)
    ensures Known(roster + extra, name)
  {
    var i :| 0 <= i < |roster| && Lower(roster[i]) == Lower(name);
    assert (roster + extra)[i] == roster[i];
  }

  /** `import_players_from_list`: strips each name and appends those that
      are non-empty and not yet known (including names added earlier in
      the same batch), by the same test as `add_player`. Returns the number
      added and the new roster. */
  function ImportPlayers(roster: seq<string>, names: seq<string>): (r: (nat, seq<string>))
    ensures |r.1| == |roster| + r.0
    ensures r.1[..|roster|] == roster
    ensures IsSubsequence(r.1[|roster|..], StripAll(names))
    ensures forall j :: 0 <= j < |names| && Strip(names[j]) != [] ==> Known(r.1, Strip(names[j]))
    ensures WellFormed(roster) ==> WellFormed(r.1)
    decreases |names|
  {
    if |names| == 0 then (0, roster)
    else
      var step := AddPlayer(roster, names[0]);
      var rest := ImportPlayers(step.1, names[1..]);
      ImportStep(roster, names, Strip(names[0]), step.0, step.1, rest.1);
      (rest.0 + (if step.0 then 1 else 0), rest.1)
  }

  /** A prefix of a prefix is a prefix. */
  lemma PrefixOfPrefix(a: seq<string>, b: seq<string>, c: seq<string>)
    requires |b| >= |a| && b[..|a|] == a
    requires |c| >= |b| && c[..|b|] == b
    ensures c[..|a|] == a
  {
    assert c[..|a|] == c[..|b|][..|a|];
  }

  /** One step of the import loop carries its guarantees over from the rest
      of the batch to the whole batch. */
  lemma ImportStep(roster: seq<string>, names: seq<string>, n: string, added: bool,
                   next: seq<string>, final: seq<string>)
    requires |names| > 0 && n == Strip(names[0])
    requires added == (n != [] && !Known(roster, n))
    requires next == if added then roster + [n] else roster
    requires |final| >= |next| && final[..|next|] == next
    requires IsSubsequence(final[|next|..], StripAll(names[1..]))
    requires forall j :: 0 <= j < |names[1..]| && Strip(names[1..][j]) != [] ==> Known(final, Strip(names[1..][j]))
    ensures |final| >= |roster| && final[..|roster|] == roster
    ensures IsSubsequence(final[|roster|..], StripAll(names))
    ensures forall j :: 0 <= j < |names| && Strip(names[j]) != [] ==> Known(final, Strip(names[j]))
  {
    PrefixOfPrefix(roster, next, final);
    ImportStepOrder(roster, names, n, added, next, final);
    ImportStepKnown(roster, names, n, added, next, final);
  }

  lemma ImportStepOrder(roster: seq<string>, names: seq<string>, n: string, added: bool,
                        next: seq<string>, final: seq<string>)
    requires |names| > 0 && n == Strip(names[0])
    requires next == if added then roster + [n] else roster
    requires |final| >= |next| && final[..|next|] == next
    requires IsSubsequence(final[|next|..], StripAll(names[1..]))
    ensures IsSubsequence(final[|roster|..], StripAll(names))
  {
    StripAllCons(names);
    SuffixAfterStep(roster, n, added, next, final);
    if added {
      SubsequenceCons(n, final[|next|..], StripAll(names[1..]));
    } else {
      SubsequenceSkip(n, final[|next|..], StripAll(names[1..]));
    }
  }

  /** What one import step appended, seen from the roster before it. */
  lemma SuffixAfterStep(roster: seq<string>, n: string, added: bool,
                        next: seq<string>, final: seq<string>)
    requires next == if added then roster + [n] else roster
    requires |final| >= |next| && final[..|next|] == next
    ensures added ==> final[|roster|..] == [n] + final[|next|..]
    ensures !added ==> final[|roster|..] == final[|next|..]
  {
    if added {
      assert final[|roster|] == next[|roster|] == n;
    }
  }

  lemma StripAllCons(names: seq<string>)
    requires |names| > 0
    ensures StripAll(names) == [Strip(names[0])] + StripAll(names[1..])
  {
    var a := StripAll(names);
    var b := [Strip(names[0])] + StripAll(names[1..]);
    assert forall j :: 1 <= j < |names| ==> names[j] == names[1..][j - 1];
    assert forall j :: 0 <= j < |a| ==> a[j] == b[j];
  }

  /** Keeping a common first element keeps a subsequence. */
  lemma SubsequenceCons(x: string, a: seq<string>, b: seq<string>)
    requires IsSubsequence(a, b)
    ensures IsSubsequence([x] + a, [x] + b)
  {
    assert ([x] + a)[1..] == a;
    assert ([x] + b)[1..] == b;
  }

  /** Skipping an element of the longer sequence keeps a subsequence. */
  lemma SubsequenceSkip(x: string, a: seq<string>, b: seq<string>)
    requires IsSubsequence(a, b)
    ensures IsSubsequence(a, [x] + b)
  {
    assert ([x] + b)[1..] == b;
  }

  lemma ImportStepKnown(roster: seq<string>, names: seq<string>, n: string, added: bool,
                        next: seq<string>, final: seq<string>)
    requires |names| > 0 && n == Strip(names[0])
    requires added == (n != [] && !Known(roster, n))
    requires next == if added then roster + [n] else roster
    requires |final| >= |next| && final[..|next|] == next
    requires forall j :: 0 <= j < |names[1..]| && Strip(names[1..][j]) != [] ==> Known(final, Strip(names[1..][j]))
    ensures forall j :: 0 <= j < |names| && Strip(names[j]) != [] ==> Known(final, Strip(names[j]))
  {
    if n != [] {
      FirstNameKnown(roster, n, added, next, final);
    }
    forall j | 0 <= j < |names| && Strip(names[j]) != []
      ensures Known(final, Strip(names[j]))
    {
      if j > 0 {
        assert names[j] == names[1..][j - 1];
      }
    }
  }

  /** The name handled by one import step is known at the end. */
  lemma FirstNameKnown(roster: seq<string>, n: string, added: bool,
                       next: seq<string>, final: seq<string>)
    requires n != []
    requires added == !Known(roster, n)
    requires next == if added then roster + [n] else roster
    requires |final| >= |next| && final[..|next|] == next
    ensures Known(final, n)
  {
    if added {
      assert Lower(next[|roster|]) == Lower(n);
      assert Known(next, n);
    } else {
      assert next == roster;
    }
    KnownGrows(next, final[|next|..], n);
    assert next + final[|next|..] == final;
  }

  /** `added` holds only names new to `roster`, and no two of them are
      equal ignoring case. */
  predicate FreshNames(roster: seq<string>, added: seq<string>)
  {
    && (forall i :: 0 <= i < |added| ==> !Known(roster, added[i]))
    && (forall i, j :: 0 <= i < j < |added| ==> Lower(added[i]) != Lower(added[j]))
  }

  /** Whatever the roster holds, an import only appends names it did not
      know, and never the same name twice in any letter case, even when the
      batch repeats it. */
  lemma {:induction false} ImportAddsFreshNames(roster: seq<string>, names: seq<string>)
    ensures FreshNames(roster, ImportPlayers(roster, names).1[|roster|..])
    decreases |names|
  {
    if |names| > 0 {
      var step := AddPlayer(roster, names[0]);
      var rest := ImportPlayers(step.1, names[1..]);
      ImportAddsFreshNames(step.1, names[1..]);
      ImportFreshStep(roster, Strip(names[0]), step.0, step.1, rest.1);
    }
  }

  /** One import step keeps the appended names fresh. */
  lemma ImportFreshStep(roster: seq<string>, n: string, added: bool,
                        next: seq<string>, final: seq<string>)
    requires added == (n != [] && !Known(roster, n))
    requires next == if added then roster + [n] else roster
    requires |final| >= |next| && final[..|next|] == next
    requires FreshNames(next, final[|next|..])
    ensures FreshNames(roster, final[|roster|..])
  {
    if added {
      assert final[|roster|..] == [n] + final[|next|..];
      FreshCons(roster, n, final[|next|..]);
    }
  }

  /** A name new to `roster`, followed by names new to `roster + [n]`, are
      all new to `roster` and pairwise distinct. */
  lemma FreshCons(roster: seq<string>, n: string, tail: seq<string>)
    requires !Known(roster, n) && FreshNames(roster + [n], tail)
    ensures FreshNames(roster, [n] + tail)
  {
    var added := [n] + tail;
    forall i | 0 <= i < |tail|
      ensures !Known(roster, tail[i]) && Lower(tail[i]) != Lower(n)
    {
      UnknownAfterAppend(roster, n, tail[i]);
    }
    assert forall i :: 1 <= i < |added| ==> added[i] == tail[i - 1];
  }

  /** A name unknown to `roster + [n]` is unknown to `roster` and differs
      from `n` ignoring case. */
  lemma UnknownAfterAppend(roster: seq<string>, n: string, x: string)
    requires !Known(roster + [n], x)
    ensures !Known(roster, x) && Lower(x) != Lower(n)
  {
    if Known(roster, x) {
      KnownGrows(roster, [n], x);
    }
    assert (roster + [n])[|roster|] == n;
  }

  /** Position `j` of the stripped batch `stripped` holds a name an import
      appends: it is non-blank, the roster does not know it, and no earlier
      name of the batch equals it ignoring case. */
  predicate Admitted(roster: seq<string>, stripped: seq<string>, j: int)
    requires 0 <= j < |stripped|
  {
    var m := stripped[j];
    && m != []
    && !Known(roster, m)
    && (forall i :: 0 <= i < j ==> Lower(stripped[i]) != Lower(m))
  }

  /** Whether each position of the stripped batch is admitted. */
  function AdmittedMask(roster: seq<string>, stripped: seq<string>): (mask: seq<bool>)
    ensures |mask| == |stripped|
    ensures forall j :: 0 <= j < |stripped| ==> mask[j] == Admitted(roster, stripped, j)
  {
    seq(|stripped|, j requires 0 <= j < |stripped| => Admitted(roster, stripped, j))
  }

  /** The items at the positions `mask` selects, from `j` on, in order. */
  function Select<T>(items: seq<T>, mask: seq<bool>, j: nat): seq<T>
    requires |mask| == |items| && j <= |items|
    decreases |items| - j
  {
    if j == |items| then []
    else (if mask[j] then [items[j]] else []) + Select(items, mask, j + 1)
  }

  /** The names an import appends, by the per-position rule `Admitted`
      over the stripped batch. */
  function AdmittedNames(roster: seq<string>, names: seq<string>): seq<string>
  {
    var stripped := StripAll(names);
    Select(stripped, AdmittedMask(roster, stripped), 0)
  }

  /** An import appends exactly the admitted names: the first spelling of
      each new name is kept, in batch order, and every later repeat in any
      letter case is skipped. */
  lemma {:induction false} ImportAppendsAdmitted(roster: seq<string>, names: seq<string>)
    ensures ImportPlayers(roster, names).1 == roster + AdmittedNames(roster, names)
    ensures ImportPlayers(roster, names).0 == |AdmittedNames(roster, names)|
    decreases |names|
  {
    if |names| > 0 {
      var step := AddPlayer(roster, names[0]);
      ImportAppendsAdmitted(step.1, names[1..]);
      AdmittedNamesStep(roster, names);
    }
  }

  /** The admitted names of a batch are its first name when that one is
      added, followed by the admitted names of the rest against the roster
      after that step. */
  lemma AdmittedNamesStep(roster: seq<string>, names: seq<string>)
    requires |names| > 0
    ensures var step := AddPlayer(roster, names[0]);
            AdmittedNames(roster, names)
            == (if step.0 then [Strip(names[0])] else []) + AdmittedNames(step.1, names[1..])
  {
    var step := AddPlayer(roster, names[0]);
    var stripped := StripAll(names);
    StripAllCons(names);
    assert stripped[1..] == StripAll(names[1..]);
    MaskStep(roster, stripped, step.0, step.1);
    SelectCons(stripped, AdmittedMask(roster, stripped), AdmittedMask(step.1, stripped[1..]));
  }

  /** The first position is admitted exactly when the first import step
      adds its name, and admission for the rest against the roster after
      that step is admission one position later against the original
      roster. */
  lemma MaskStep(roster: seq<string>, stripped: seq<string>, added: bool, next: seq<string>)
    requires |stripped| > 0
    requires added == (stripped[0] != [] && !Known(roster, stripped[0]))
    requires next == if added then roster + [stripped[0]] else roster
    ensures var m1 := AdmittedMask(roster, stripped);
            var m2 := AdmittedMask(next, stripped[1..]);
            && m1[0] == added
            && forall k :: 0 <= k < |m2| ==> m2[k] == m1[k + 1]
  {
    AdmittedStep(roster, stripped, added, next);
  }

  /** Selection from a non-empty sequence: its head when selected, then the
      selection from its tail under the shifted mask. */
  lemma SelectCons<T>(items: seq<T>, m1: seq<bool>, m2: seq<bool>)
    requires 0 < |items| && |m1| == |items| && |m2| == |items| - 1
    requires forall k :: 0 <= k < |m2| ==> m2[k] == m1[k + 1]
    ensures Select(items, m1, 0) == (if m1[0] then [items[0]] else []) + Select(items[1..], m2, 0)
  {
    var tail := items[1..];
    assert forall k :: 0 <= k < |tail| ==> tail[k] == items[k + 1];
    SelectShift(items, m1, tail, m2, 0);
  }

  /** Selecting from a tail with a mask shifted by one gives the same
      items as selecting from the whole from one position later. */
  lemma {:induction false} SelectShift<T>(items: seq<T>, m1: seq<bool>, tail: seq<T>, m2: seq<bool>, j: nat)
    requires |m1| == |items| && |tail| == |m2| == |items| - 1 && j <= |m2|
    requires forall k :: 0 <= k < |tail| ==> tail[k] == items[k + 1]
    requires forall k :: 0 <= k < |m2| ==> m2[k] == m1[k + 1]
    ensures Select(tail, m2, j) == Select(items, m1, j + 1)
    decreases |m2| - j
  {
    if j < |m2| {
      SelectShift(items, m1, tail, m2, j + 1);
      var head := if m2[j] then [tail[j]] else [];
      assert tail[j] == items[j + 1] && m2[j] == m1[j + 1];
      assert Select(tail, m2, j) == head + Select(tail, m2, j + 1);
      assert Select(items, m1, j + 1) == head + Select(items, m1, j + 2);
    }
  }

  /** After one import step, admission for the rest of the batch against
      the new roster is admission one position later against the old one. */
  lemma AdmittedStep(roster: seq<string>, stripped: seq<string>, added: bool, next: seq<string>)
    requires |stripped| > 0
    requires added == (stripped[0] != [] && !Known(roster, stripped[0]))
    requires next == if added then roster + [stripped[0]] else roster
    ensures forall k :: 0 <= k < |stripped| - 1 ==>
              (Admitted(next, stripped[1..], k) <==> Admitted(roster, stripped, k + 1))
  {
    forall k | 0 <= k < |stripped| - 1
      ensures Admitted(next, stripped[1..], k) <==> Admitted(roster, stripped, k + 1)
    {
      var m := stripped[k + 1];
      assert stripped[1..][k] == m;
      EarlierNames(stripped, k, m);
      if m != [] {
        KnownAfterStep(roster, stripped[0], added, next, m);
      }
    }
  }

  /** "No earlier name equals `m`" in the whole batch splits into the
      first name and the earlier names of the rest. */
  lemma EarlierNames(stripped: seq<string>, k: int, m: string)
    requires 0 <= k < |stripped| - 1
    ensures (forall i :: 0 <= i < k + 1 ==> Lower(stripped[i]) != Lower(m))
            <==> Lower(stripped[0]) != Lower(m)
                 && (forall i :: 0 <= i < k ==> Lower(stripped[1..][i]) != Lower(m))
  {
    var tail := stripped[1..];
    if forall i :: 0 <= i < k + 1 ==> Lower(stripped[i]) != Lower(m) {
      forall i | 0 <= i < k
        ensures Lower(tail[i]) != Lower(m)
      {
        assert tail[i] == stripped[i + 1];
      }
    }
    if Lower(stripped[0]) != Lower(m) && (forall i :: 0 <= i < k ==> Lower(tail[i]) != Lower(m)) {
      forall i | 1 <= i < k + 1
        ensures Lower(stripped[i]) != Lower(m)
      {
        assert stripped[i] == tail[i - 1];
      }
    }
  }

  /** For a non-blank name `m`, being unknown to the roster after a step
      is being unknown before it and different from the stepped name. */
  lemma KnownAfterStep(roster: seq<string>, n: string, added: bool, next: seq<string>, m: string)
    requires m != []
    requires added == (n != [] && !Known(roster, n))
    requires next == if added then roster + [n] else roster
    ensures !Known(next, m) <==> !Known(roster, m) && Lower(n) != Lower(m)
  {
    if added {
      if !Known(next, m) {
        UnknownAfterAppend(roster, n, m);
      }
      if Known(next, m) {
        var i :| 0 <= i < |next| && Lower(next[i]) == Lower(m);
        if i < |roster| {
          assert Lower(roster[i]) == Lower(m);
        }
      }
    }
  }

  /** A name matches the query when its lower-cased form contains the
      lower-cased query. */
  predicate Matches(name: string, query: string)
  {
    Contains(Lower(query), Lower(name))
  }

  /** `search_players`: the names matching the query, in roster order,
      each matching entry kept as often as it occurs. */
  function SearchPlayers(roster: seq<string>, query: string): (r: seq<string>)
    ensures IsSubsequence(r, roster)
    ensures forall j :: 0 <= j < |r| ==> Matches(r[j], query)
    ensures forall x :: multiset(r)[x] == if Matches(x, query) then multiset(roster)[x] else 0
    decreases |roster|
  {
    if |roster| == 0 then []
    else
      var rest := SearchPlayers(roster[1..], query);
      SearchConsFacts(roster[0], roster[1..], rest, query);
      assert roster == [roster[0]] + roster[1..];
      if Matches(roster[0], query) then [roster[0]] + rest else rest
  }

  /** The search result for `[x] + tail` from the result for `tail`. */
  lemma SearchConsFacts(x: string, tail: seq<string>, rest: seq<string>, query: string)
    requires IsSubsequence(rest, tail)
    requires forall j :: 0 <= j < |rest| ==> Matches(rest[j], query)
    requires forall y :: multiset(rest)[y] == if Matches(y, query) then multiset(tail)[y] else 0
    ensures var r := if Matches(x, query) then [x] + rest else rest;
            && IsSubsequence(r, [x] + tail)
            && (forall j :: 0 <= j < |r| ==> Matches(r[j], query))
            && (forall y :: multiset(r)[y] == if Matches(y, query) then multiset([x] + tail)[y] else 0)
  {
    if Matches(x, query) {
      SubsequenceCons(x, rest, tail);
      var r := [x] + rest;
      assert forall j :: 1 <= j < |r| ==> r[j] == rest[j - 1];
    } else {
      SubsequenceSkip(x, rest, tail);
    }
  }

  /** Removing a name right after adding it restores the roster: the added
      name was not there before, so its first occurrence is the new last
      entry. */
  lemma AddThenRemove(roster: seq<string>, name: string)
    requires Strip(name) != [] && !Known(roster, Strip(name))
    ensures RemovePlayer(AddPlayer(roster, name).1, name) == (true, roster)
  {
    var n := Strip(name);
    UnknownIsAbsent(roster, n);
    RemoveAppended(roster, n);
  }

  lemma UnknownIsAbsent(roster: seq<string>, n: string)
    requires !Known(roster, n)
    ensures n !in roster
  {
    forall i | 0 <= i < |roster|
      ensures roster[i] != n
    {
      assert Lower(roster[i]) != Lower(n);
    }
  }

  lemma RemoveAppended(roster: seq<string>, n: string)
    requires n !in roster
    ensures RemoveFirst(roster + [n], n) == roster
  {
    var grown := roster + [n];
    assert forall j :: 0 <= j < |roster| ==> grown[j] != n;
    assert IndexOf(grown, n) == |roster|;
    assert grown[..|roster|] == roster;
  }

  /** A name that was added is refused the second time, in any letter
      case. */
  lemma AddIsIdempotent(roster: seq<string>, name: string, again: string)
    requires Strip(name) != [] && !Known(roster, Strip(name))
    requires Lower(Strip(again)) == Lower(Strip(name))
    ensures AddPlayer(AddPlayer(roster, name).1, again) == (false, AddPlayer(roster, name).1)
  {
    var grown := AddPlayer(roster, name).1;
    assert Lower(grown[|roster|]) == Lower(Strip(again));
  }

  /** The player count moves by exactly one on every successful add or
      remove, and clearing leaves an empty, well-formed roster. */
  lemma CountTracksChanges(roster: seq<string>, name: string)
    ensures var a := AddPlayer(roster, name);
            GetPlayerCount(a.1) == GetPlayerCount(roster) + (if a.0 then 1 else 0)
    ensures var d := RemovePlayer(roster, name);
            GetPlayerCount(d.1) == GetPlayerCount(roster) - (if d.0 then 1 else 0)
    ensures GetPlayerCount(ClearPlayers(roster)) == 0 && WellFormed(ClearPlayers(roster))
    ensures GetPlayers(roster) == roster
  {
  }

  /** An empty query matches every player. */
  lemma {:induction false} EmptyQueryFindsAll(roster: seq<string>)
    ensures SearchPlayers(roster, "") == roster
    decreases |roster|
  {
    if |roster| > 0 {
      MatchesEmpty(roster[0]);
      EmptyQueryFindsAll(roster[1..]);
    }
  }

  lemma MatchesEmpty(name: string)
    ensures Matches(name, "")
  {
    assert Lower("") == "";
  }

  /** A batch whose second name repeats the first in another letter case
      keeps the first spelling and skips the repeat: `["a", "A"]` adds
      `"a"` alone. */
  lemma RepeatKeepsFirstSpelling(roster: seq<string>, x: string, y: string)
    requires Strip(x) != [] && !Known(roster, Strip(x))
    requires Lower(Strip(y)) == Lower(Strip(x))
    ensures ImportPlayers(roster, [x, y]) == (1, roster + [Strip(x)])
  {
    var next := roster + [Strip(x)];
    assert AddPlayer(roster, x) == (true, next);
    RepeatIsKnown(roster, Strip(x), Strip(y));
    ImportKnownName(next, y);
    assert [x, y][0] == x && [x, y][1..] == [y];
  }

  lemma RepeatIsKnown(roster: seq<string>, n: string, m: string)
    requires n != [] && Lower(m) == Lower(n)
    ensures m != [] && Known(roster + [n], m)
  {
    assert |Lower(m)| == |m| && |Lower(n)| == |n|;
    assert (roster + [n])[|roster|] == n;
  }

  lemma ImportKnownName(roster: seq<string>, y: string)
    requires Strip(y) != [] && Known(roster, Strip(y))
    ensures ImportPlayers(roster, [y]) == (0, roster)
  {
    assert AddPlayer(roster, y) == (false, roster);
    assert [y][0] == y && [y][1..] == [];
  }
}

=== FILE: pods.dfy ===
/** The pod distributor: splits a shuffled list of player names into pods,
    first by a balanced search over pod counts, then, if no pod count is
    accepted, by sequential chunking. Also holds the statistics over a pod
    list and the in-memory history of assignments. */
module Pods {
  import opened Wrappers
  import opened PyOps

  /** One pod: a 1-based id, its players in shuffled order, and the recorded
      size (which the distributor always sets to the length of `players`). */
  datatype Pod = Pod(id: int, players: seq<string>, size: int)

  /** The only failure the distributor can raise: `max_size == 0` makes the
      pod-count computation divide by zero. */
  datatype Error = ZeroDivisionError

  /** The nominal minimum pod size, hard-coded in the clamps. */
  const MinPodSize: int := 3

  /** All players of all pods, in pod order. */
  function Members(pods: seq<Pod>): seq<string>
  {
    if |pods| == 0 then [] else pods[0].players + Members(pods[1..])
  }

  lemma MembersCons(p: Pod, pods: seq<Pod>)
    ensures Members([p] + pods) == p.players + Members(pods)
  {
    assert ([p] + pods)[1..] == pods;
  }

  lemma {:induction false} MembersAppend(a: seq<Pod>, b: seq<Pod>)
    ensures Members(a + b) == Members(a) + Members(b)
    decreases |a|
  {
    if |a| == 0 {
      assert a + b == b;
    } else {
      assert (a + b)[1..] == a[1..] + b;
      MembersAppend(a[1..], b);
    }
  }

  /** Every pod's `size` field equals the length of its player list. */
  predicate SizesMatch(pods: seq<Pod>)
  {
    forall j :: 0 <= j < |pods| ==> pods[j].size == |pods[j].players|
  }

  /** Pod ids are 1, 2, ..., in order. */
  predicate SequentialIds(pods: seq<Pod>)
  {
    forall j :: 0 <= j < |pods| ==> pods[j].id == j + 1
  }

  /** Every pod holds at most `maxSize` players. */
  predicate WithinMax(pods: seq<Pod>, maxSize: int)
  {
    forall j :: 0 <= j < |pods| ==> |pods[j].players| <= maxSize
  }

  /** The effective target size: the requested one clamped into
      `[3, maxSize]`, or 3 when `maxSize` is below 3. */
  function EffectiveTarget(targetSize: int, maxSize: int): (t: int)
    ensures t >= MinPodSize
    ensures maxSize >= MinPodSize ==> t <= maxSize
    ensures MinPodSize <= targetSize <= maxSize ==> t == targetSize
    ensures targetSize > maxSize >= MinPodSize ==> t == maxSize
    ensures targetSize < MinPodSize || maxSize < MinPodSize ==> t == MinPodSize
  {
    Clamp(MinPodSize, targetSize, maxSize)
  }

  /** The size pod `i` (0-based) of a `k`-pod candidate asks for before
      clamping: `base`, plus one for the first `rem` pods. */
  function RequestedSize(base: int, rem: int, i: int): int
  {
    base + (if i < rem then 1 else 0)
  }

  /** Where the inner loop's `index` ends for candidate `k`, from pod `i`
      on: each non-empty request advances it by its clamped size, whatever
      the slice actually holds. */
  function CandidateEnd(base: int, rem: int, k: int, maxSize: int, i: nat, index: nat): (e: nat)
    ensures e >= index
    decreases k - i
  {
    if i >= k then index
    else
      var requested := RequestedSize(base, rem, i);
      if requested == 0 then CandidateEnd(base, rem, k, maxSize, i + 1, index)
      else CandidateEnd(base, rem, k, maxSize, i + 1, index + Clamp(MinPodSize, requested, maxSize))
  }

  /** The inner loop of the balanced search for one candidate pod count
      `k`, from pod `i` on, with `index` players already consumed. Each
      non-empty requested size is clamped into `[3, maxSize]` and that many
      players are sliced off; the slice may be shorter than the clamped
      size. Returns the pods built and the final index. */
  function BuildCandidate(players: seq<string>, base: int, rem: int, k: int,
                          maxSize: int, i: nat, index: nat): (r: (seq<Pod>, nat))
    ensures r.1 == CandidateEnd(base, rem, k, maxSize, i, index)
    ensures Members(r.0) == Slice(players, index, r.1)
    ensures SizesMatch(r.0)
    ensures maxSize >= MinPodSize ==> WithinMax(r.0, maxSize)
    decreases k - i
  {
    if i >= k then ([], index)
    else
      var requested := RequestedSize(base, rem, i);
      if requested == 0 then BuildCandidate(players, base, rem, k, maxSize, i + 1, index)
      else
        var podSize := Clamp(MinPodSize, requested, maxSize);
        var chunk := Slice(players, index, index + podSize);
        var rest := BuildCandidate(players, base, rem, k, maxSize, i + 1, index + podSize);
        var pod := Pod(i + 1, chunk, |chunk|);
        ConsCandidatePod(players, index, index + podSize, pod, rest.0, rest.1, maxSize);
        ([pod] + rest.0, rest.1)
  }

  /** Putting the pod sliced from `[index, mid)` in front of the pods
      covering `[mid, end)` covers `[index, end)` and keeps sizes recorded
      and the maximum. */
  lemma ConsCandidatePod(players: seq<string>, index: int, mid: int, pod: Pod,
                         rest: seq<Pod>, end: int, maxSize: int)
    requires 0 <= index <= mid <= end
    requires pod.players == Slice(players, index, mid) && pod.size == |pod.players|
    requires Members(rest) == Slice(players, mid, end) && SizesMatch(rest)
    requires maxSize >= MinPodSize ==> WithinMax(rest, maxSize) && |pod.players| <= maxSize
    ensures Members([pod] + rest) == Slice(players, index, end)
    ensures SizesMatch([pod] + rest)
    ensures maxSize >= MinPodSize ==> WithinMax([pod] + rest, maxSize)
  {
    SliceAppend(players, index, mid, end);
    MembersCons(pod, rest);
    var all := [pod] + rest;
    assert forall j :: 1 <= j < |all| ==> all[j] == rest[j - 1];
  }

  /** Pod `p` of a candidate built from position `i` with `index` players
      consumed: the slice from where the loop's index stands after the
      earlier positions, asking for the clamped request, with id `p + 1`. */
  predicate PodAt(players: seq<string>, base: int, rem: int, maxSize: int,
                  i: nat, index: nat, p: int, pod: Pod)
    requires i <= p
  {
    var start := CandidateEnd(base, rem, p, maxSize, i, index);
    && pod.id == p + 1
    && pod.players == Slice(players, start, start + Clamp(MinPodSize, RequestedSize(base, rem, p), maxSize))
  }

  /** Every pod of `r` is the pod at its position, counting from `i`. */
  predicate PodsFrom(players: seq<string>, base: int, rem: int, maxSize: int,
                     i: nat, index: nat, r: seq<Pod>)
  {
    forall j :: 0 <= j < |r| ==> PodAt(players, base, rem, maxSize, i, index, i + j, r[j])
  }

  /** With every request non-empty (`base >= 1`), the candidate built from
      position `i` has one pod per position in `[i, k)`, and its pod `j` is
      `PodAt` position `i + j`. */
  lemma {:induction false} BuildCandidatePods(players: seq<string>, base: int, rem: int, k: int,
                                              maxSize: int, i: nat, index: nat)
    requires i <= k
    ensures var r := BuildCandidate(players, base, rem, k, maxSize, i, index).0;
            base >= 1 ==> |r| == k - i && PodsFrom(players, base, rem, maxSize, i, index, r)
    decreases k - i
  {
    if i < k && base >= 1 {
      var next: nat := index + Clamp(MinPodSize, RequestedSize(base, rem, i), maxSize);
      BuildCandidatePods(players, base, rem, k, maxSize, i + 1, next);
      BuildCandidatePodsStep(players, base, rem, k, maxSize, i, index, next,
                             BuildCandidate(players, base, rem, k, maxSize, i + 1, next).0);
    }
  }

  /** The inductive step of `BuildCandidatePods`, with `next` the index
      after position `i` and `rest` the pods built from there. */
  lemma BuildCandidatePodsStep(players: seq<string>, base: int, rem: int, k: int,
                               maxSize: int, i: nat, index: nat, next: nat, rest: seq<Pod>)
    requires i < k && base >= 1
    requires next == index + Clamp(MinPodSize, RequestedSize(base, rem, i), maxSize)
    requires rest == BuildCandidate(players, base, rem, k, maxSize, i + 1, next).0
    requires |rest| == k - (i + 1) && PodsFrom(players, base, rem, maxSize, i + 1, next, rest)
    ensures var r := BuildCandidate(players, base, rem, k, maxSize, i, index).0;
            |r| == k - i && PodsFrom(players, base, rem, maxSize, i, index, r)
  {
    var chunk := Slice(players, index, next);
    BuildCandidateCons(players, base, rem, k, maxSize, i, index, next);
    ConsPods(players, base, rem, maxSize, i, index, next, Pod(i + 1, chunk, |chunk|), rest);
  }

  /** One step of the inner loop with a non-empty request: the pod sliced
      at `index`, then the pods from the next position. */
  lemma BuildCandidateCons(players: seq<string>, base: int, rem: int, k: int,
                           maxSize: int, i: nat, index: nat, next: nat)
    requires i < k && base >= 1
    requires next == index + Clamp(MinPodSize, RequestedSize(base, rem, i), maxSize)
    ensures BuildCandidate(players, base, rem, k, maxSize, i, index).0
            == [Pod(i + 1, Slice(players, index, next), |Slice(players, index, next)|)]
               + BuildCandidate(players, base, rem, k, maxSize, i + 1, next).0
  {
    assert RequestedSize(base, rem, i) != 0;
    var rest := BuildCandidate(players, base, rem, k, maxSize, i + 1, next);
    var chunk := Slice(players, index, next);
    assert BuildCandidate(players, base, rem, k, maxSize, i, index) == ([Pod(i + 1, chunk, |chunk|)] + rest.0, rest.1);
  }

  /** The first pod followed by the pods from the next position are the
      pods from this position. */
  lemma ConsPods(players: seq<string>, base: int, rem: int, maxSize: int,
                 i: nat, index: nat, next: nat, first: Pod, rest: seq<Pod>)
    requires base >= 1
    requires next == index + Clamp(MinPodSize, RequestedSize(base, rem, i), maxSize)
    requires first.id == i + 1
    requires first.players == Slice(players, index, next)
    requires PodsFrom(players, base, rem, maxSize, i + 1, next, rest)
    ensures PodsFrom(players, base, rem, maxSize, i, index, [first] + rest)
  {
    var r := [first] + rest;
    forall j | 0 <= j < |r|
      ensures PodAt(players, base, rem, maxSize, i, index, i + j, r[j])
    {
      if j == 0 {
        FirstPodAt(players, base, rem, maxSize, i, index, next, first);
      } else {
        assert r[j] == rest[j - 1];
        assert PodAt(players, base, rem, maxSize, i + 1, next, i + 1 + (j - 1), rest[j - 1]);
        PodAtStep(players, base, rem, maxSize, i, index, next, i + j, rest[j - 1]);
      }
    }
  }

  /** The pod sliced at the current index is the pod at this position. */
  lemma FirstPodAt(players: seq<string>, base: int, rem: int, maxSize: int,
                   i: nat, index: nat, next: nat, first: Pod)
    requires next == index + Clamp(MinPodSize, RequestedSize(base, rem, i), maxSize)
    requires first.id == i + 1
    requires first.players == Slice(players, index, next)
    ensures PodAt(players, base, rem, maxSize, i, index, i + 0, first)
  {
    assert CandidateEnd(base, rem, i, maxSize, i, index) == index;
  }

  /** A later pod seen from one position earlier. */
  lemma PodAtStep(players: seq<string>, base: int, rem: int, maxSize: int,
                  i: nat, index: nat, next: nat, p: int, pod: Pod)
    requires base >= 1 && i < p
    requires next == index + Clamp(MinPodSize, RequestedSize(base, rem, i), maxSize)
    requires PodAt(players, base, rem, maxSize, i + 1, next, p, pod)
    ensures PodAt(players, base, rem, maxSize, i, index, p, pod)
  {
    assert CandidateEnd(base, rem, p, maxSize, i, index) == CandidateEnd(base, rem, p, maxSize, i + 1, next);
  }

  /** Where pod `j` (0-based) of candidate `k` starts: the inner loop's
      index after the pods before it. */
  function CandidateStart(n: int, k: int, maxSize: int, j: int): nat
    requires k >= 1
  {
    CandidateEnd(FloorDiv(n, k), FloorMod(n, k), j, maxSize, 0, 0)
  }

  /** How many players pod `j` of candidate `k` asks for: its share
      `n // k`, one more for the first `n % k` pods, clamped into
      `[3, maxSize]`. */
  function CandidateSize(n: int, k: int, maxSize: int, j: int): int
    requires k >= 1
  {
    Clamp(MinPodSize, RequestedSize(FloorDiv(n, k), FloorMod(n, k), j), maxSize)
  }

  /** Pod `j` of `pods` has id `j + 1` and is the slice of `players` from
      pod `j`'s start in candidate `k`, asking for its clamped share. */
  predicate PodsAtStart(players: seq<string>, k: int, maxSize: int, pods: seq<Pod>)
    requires k >= 1
  {
    forall j :: 0 <= j < |pods| ==>
      var start := CandidateStart(|players|, k, maxSize, j);
      && pods[j].id == j + 1
      && pods[j].players == Slice(players, start, start + CandidateSize(|players|, k, maxSize, j))
  }

  /** One candidate pod count `k >= 1` of the balanced search. For
      `k <= n` it has exactly `k` pods, pod `j` with id `j + 1` holding the
      players from its start that its clamped share asks for, fewer only
      when the list ends first. */
  function Candidate(players: seq<string>, k: int, maxSize: int): (r: (seq<Pod>, nat))
    requires k >= 1
    ensures r.1 == CandidateStart(|players|, k, maxSize, k)
    ensures Members(r.0) == Slice(players, 0, r.1)
    ensures SizesMatch(r.0)
    ensures maxSize >= MinPodSize ==> WithinMax(r.0, maxSize)
    ensures k <= |players| ==> |r.0| == k && PodsAtStart(players, k, maxSize, r.0)
  {
    CandidatePods(players, k, maxSize);
    BuildCandidate(players, FloorDiv(|players|, k), FloorMod(|players|, k), k, maxSize, 0, 0)
  }

  /** The per-pod statement of `Candidate`, from `BuildCandidatePods`. */
  lemma CandidatePods(players: seq<string>, k: int, maxSize: int)
    requires k >= 1
    ensures var n := |players|;
            var r := BuildCandidate(players, FloorDiv(n, k), FloorMod(n, k), k, maxSize, 0, 0).0;
            k <= n ==> |r| == k && PodsAtStart(players, k, maxSize, r)
  {
    var n := |players|;
    var base := FloorDiv(n, k);
    var rem := FloorMod(n, k);
    BuildCandidatePods(players, base, rem, k, maxSize, 0, 0);
    ShareIsPositive(n, k);
    if k <= n {
      StartPods(players, k, maxSize, BuildCandidate(players, base, rem, k, maxSize, 0, 0).0);
    }
  }

  /** Pods that are the pods at their positions counted from the start of
      candidate `k`. */
  lemma StartPods(players: seq<string>, k: int, maxSize: int, r: seq<Pod>)
    requires k >= 1
    requires PodsFrom(players, FloorDiv(|players|, k), FloorMod(|players|, k), maxSize, 0, 0, r)
    ensures PodsAtStart(players, k, maxSize, r)
  {
    forall j | 0 <= j < |r|
      ensures var start := CandidateStart(|players|, k, maxSize, j);
              && r[j].id == j + 1
              && r[j].players == Slice(players, start, start + CandidateSize(|players|, k, maxSize, j))
    {
      assert PodAt(players, FloorDiv(|players|, k), FloorMod(|players|, k), maxSize, 0, 0, 0 + j, r[j]);
    }
  }

  /** With no more pods than players, every pod's share is positive. */
  lemma ShareIsPositive(n: int, k: int)
    requires k >= 1
    ensures k <= n ==> FloorDiv(n, k) >= 1
  {
    var q := FloorDiv(n, k);
    assert k * (q + 1) == k * q + k;
  }

  /** Candidate `k` is accepted: a valid pod count whose loop index reaches
      the player count. */
  predicate Covers(players: seq<string>, k: int, maxSize: int)
  {
    k >= 1 && CandidateStart(|players|, k, maxSize, k) >= |players|
  }

  /** The outer loop of the balanced search over pod counts `k` in
      `[from, maxPods]`, skipping `k == 0`: the first candidate whose index
      reaches the player count is returned, and nothing only when no
      candidate in the range does. */
  function Search(players: seq<string>, from: int, maxPods: int, maxSize: int): (r: Option<seq<Pod>>)
    ensures r.Some? ==> Members(r.value) == players && SizesMatch(r.value)
    ensures r.Some? && maxSize >= MinPodSize ==> WithinMax(r.value, maxSize)
    ensures r.None? <==> forall k :: from <= k <= maxPods ==> !Covers(players, k, maxSize)
    ensures r.Some? ==> exists k :: from <= k <= maxPods && Covers(players, k, maxSize)
                           && r.value == Candidate(players, k, maxSize).0
                           && forall k' :: from <= k' < k ==> !Covers(players, k', maxSize)
    decreases maxPods - from
  {
    if from > maxPods then None
    else if from <= 0 || !Covers(players, from, maxSize) then
      var r := Search(players, from + 1, maxPods, maxSize);
      SearchSkip(players, from, maxPods, maxSize, r);
      r
    else
      SearchFound(players, from, maxPods, maxSize);
      Some(Candidate(players, from, maxSize).0)
  }

  /** Skipping a pod count that is 0 or does not cover keeps the search's
      answer: the first covering count from the next one on is the first
      from this one. */
  lemma SearchSkip(players: seq<string>, from: int, maxPods: int, maxSize: int, r: Option<seq<Pod>>)
    requires from <= maxPods && !Covers(players, from, maxSize)
    requires r.None? <==> forall k :: from + 1 <= k <= maxPods ==> !Covers(players, k, maxSize)
    requires r.Some? ==> exists k :: from + 1 <= k <= maxPods && Covers(players, k, maxSize)
                            && r.value == Candidate(players, k, maxSize).0
                            && forall k' :: from + 1 <= k' < k ==> !Covers(players, k', maxSize)
    ensures r.None? <==> forall k :: from <= k <= maxPods ==> !Covers(players, k, maxSize)
    ensures r.Some? ==> exists k :: from <= k <= maxPods && Covers(players, k, maxSize)
                           && r.value == Candidate(players, k, maxSize).0
                           && forall k' :: from <= k' < k ==> !Covers(players, k', maxSize)
  {
  }

  /** A covering pod count `from` is the first one from `from` on, and its
      pods use every player once, in order. */
  lemma SearchFound(players: seq<string>, from: int, maxPods: int, maxSize: int)
    requires from <= maxPods && Covers(players, from, maxSize)
    ensures var pods := Candidate(players, from, maxSize).0;
            && Members(pods) == players && SizesMatch(pods)
            && (maxSize >= MinPodSize ==> WithinMax(pods, maxSize))
    ensures exists k :: from <= k <= maxPods && Covers(players, k, maxSize)
                        && Candidate(players, from, maxSize).0 == Candidate(players, k, maxSize).0
                        && forall k' :: from <= k' < k ==> !Covers(players, k', maxSize)
  {
    assert Candidate(players, from, maxSize).1 >= |players|;
  }

  /** The balanced search's range of pod counts: for a positive size,
      the fewest pods of at most `maxSize` players that hold `n`. */
  function MinPods(n: int, maxSize: int): (k: int)
    requires maxSize != 0
    ensures maxSize > 0 ==> maxSize * (k - 1) < n <= maxSize * k
  {
    FloorDiv(n + maxSize - 1, maxSize)
  }

  /** For a positive size, the fewest pods of at most `targetSize` players
      that hold `n`. */
  function MaxPods(n: int, targetSize: int): (k: int)
    requires targetSize != 0
    ensures targetSize > 0 ==> targetSize * (k - 1) < n <= targetSize * k
  {
    FloorDiv(n + targetSize - 1, targetSize)
  }

  /** True when the balanced search finds no candidate and the sequential
      fallback runs. */
  predicate UsesFallback(players: seq<string>, targetSize: int, maxSize: int)
    requires targetSize >= 1 && maxSize != 0
  {
    var found := Search(players, MinPods(|players|, maxSize), MaxPods(|players|, targetSize), maxSize);
    !(found.Some? && |found.value| > 0)
  }

  /** The distribution step: balanced search, then the sequential fallback
      when it yields nothing. `targetSize >= 1` is what makes the fallback
      loop advance; the caller always passes a target of at least 3. */
  function CalculateDistribution(players: seq<string>, targetSize: int, maxSize: int): (r: Result<seq<Pod>, Error>)
    requires targetSize >= 1
    ensures r.Ok? <==> maxSize != 0
    ensures r.Ok? ==> Members(r.value) == players && SizesMatch(r.value)
    ensures r.Ok? && |players| > 0 ==> |r.value| > 0
  {
    if maxSize == 0 then Err(ZeroDivisionError)
    else
      var found := Search(players, MinPods(|players|, maxSize), MaxPods(|players|, targetSize), maxSize);
      if found.Some? && |found.value| > 0 then Ok(found.value)
      else Ok(SimpleDistribution(players, targetSize, maxSize))
  }

  /** The state the fallback loop keeps between iterations: the pods so far
      hold exactly the first `i` players, in order, with matching sizes and
      ids `1..|pods|`; `podId` is the next id; while players remain, every
      pod so far holds exactly `targetSize` players, and afterwards every
      pod but the last does. */
  predicate SimpleLoopInv(players: seq<string>, targetSize: int, i: nat, pods: seq<Pod>, podId: int)
  {
    && i <= |players|
    && Members(pods) == players[..i]
    && SizesMatch(pods)
    && SequentialIds(pods)
    && podId == |pods| + 1
    && (forall j :: 0 <= j < |pods| - 1 ==> |pods[j].players| == targetSize)
    && (i < |players| ==> forall j :: 0 <= j < |pods| ==> |pods[j].players| == targetSize)
  }

  /** The fallback loop from position `i`, with `pods` built so far. It
      never drops a pod, and players left to place give at least one pod;
      `SimpleLoopCorrect` states its full outcome. */
  function SimpleLoop(players: seq<string>, targetSize: int, maxSize: int,
                      i: nat, pods: seq<Pod>, podId: int): (r: seq<Pod>)
    requires i <= |players| && targetSize >= 1
    ensures |r| >= |pods|
    ensures i < |players| ==> |r| > 0
    decreases |players| - i
  {
    if i == |players| then pods
    else
      var remaining := |players| - i;
      if remaining < MinPodSize && |pods| > 0 && |pods[|pods| - 1].players| + remaining <= maxSize then
        // The short remainder joins the last pod.
        var last := pods[|pods| - 1];
        var merged := last.players + players[i..];
        pods[..|pods| - 1] + [last.(players := merged, size := |merged|)]
      else
        // Either a regular chunk, or an undersized last pod when merging
        // would exceed `maxSize`.
        var podSize := if remaining < MinPodSize && |pods| > 0 then remaining else Min(targetSize, remaining);
        var chunk := Slice(players, i, i + podSize);
        SimpleLoop(players, targetSize, maxSize, i + podSize, pods + [Pod(podId, chunk, |chunk|)], podId + 1)
  }

  /** What the fallback loop delivers: every player exactly once, in
      order; sizes recorded truthfully; ids `1..|r|`; every pod but the last
      holds exactly `targetSize` players; at least one pod when there are
      players. */
  predicate SimpleLoopPost(players: seq<string>, targetSize: int, r: seq<Pod>)
  {
    && Members(r) == players
    && SizesMatch(r)
    && SequentialIds(r)
    && (forall j :: 0 <= j < |r| - 1 ==> |r[j].players| == targetSize)
    && (|players| > 0 ==> |r| > 0)
  }

  /** The merge branch ends the loop in the promised state. */
  lemma SimpleMergeStep(players: seq<string>, targetSize: int, i: nat, pods: seq<Pod>, podId: int)
    requires SimpleLoopInv(players, targetSize, i, pods, podId)
    requires i < |players| && |pods| > 0
    ensures var last := pods[|pods| - 1];
            var merged := last.players + players[i..];
            SimpleLoopPost(players, targetSize, pods[..|pods| - 1] + [last.(players := merged, size := |merged|)])
  {
    var last := pods[|pods| - 1];
    var merged := last.players + players[i..];
    var front := pods[..|pods| - 1];
    var last' := last.(players := merged, size := |merged|);
    var r := front + [last'];
    assert pods == front + [last];
    MembersAppend(front, [last]);
    MembersAppend(front, [last']);
    MembersCons(last, []);
    MembersCons(last', []);
    assert players == players[..i] + players[i..];
    assert Members(r) == players;
    assert forall j :: 0 <= j < |front| ==> r[j] == pods[j];
  }

  /** The chunk branch re-establishes the loop state. */
  lemma SimpleChunkStep(players: seq<string>, targetSize: int, i: nat, pods: seq<Pod>, podId: int, podSize: int)
    requires SimpleLoopInv(players, targetSize, i, pods, podId)
    requires 1 <= podSize <= |players| - i
    requires i + podSize < |players| ==> podSize == targetSize
    ensures var chunk := Slice(players, i, i + podSize);
            SimpleLoopInv(players, targetSize, i + podSize, pods + [Pod(podId, chunk, |chunk|)], podId + 1)
  {
    var chunk := Slice(players, i, i + podSize);
    var pod := Pod(podId, chunk, |chunk|);
    assert chunk == players[i..i + podSize];
    MembersAppend(pods, [pod]);
    MembersCons(pod, []);
    assert players[..i + podSize] == players[..i] + chunk;
  }

  lemma {:induction false} SimpleLoopCorrect(players: seq<string>, targetSize: int, maxSize: int,
                                             i: nat, pods: seq<Pod>, podId: int)
    requires targetSize >= 1
    requires SimpleLoopInv(players, targetSize, i, pods, podId)
    requires i > 0 ==> |pods| > 0
    ensures SimpleLoopPost(players, targetSize, SimpleLoop(players, targetSize, maxSize, i, pods, podId))
    decreases |players| - i
  {
    if i == |players| {
      assert players[..i] == players;
    } else {
      var remaining := |players| - i;
      if remaining < MinPodSize && |pods| > 0 && |pods[|pods| - 1].players| + remaining <= maxSize {
        SimpleMergeStep(players, targetSize, i, pods, podId);
      } else {
        var podSize := if remaining < MinPodSize && |pods| > 0 then remaining else Min(targetSize, remaining);
        SimpleChunkStep(players, targetSize, i, pods, podId, podSize);
        var chunk := Slice(players, i, i + podSize);
        SimpleLoopCorrect(players, targetSize, maxSize, i + podSize, pods + [Pod(podId, chunk, |chunk|)], podId + 1);
      }
    }
  }

  /** The sequential fallback. */
  function SimpleDistribution(players: seq<string>, targetSize: int, maxSize: int): (r: seq<Pod>)
    requires targetSize >= 1
    ensures SimpleLoopPost(players, targetSize, r)
  {
    SimpleLoopCorrect(players, targetSize, maxSize, 0, [], 1);
    SimpleLoop(players, targetSize, maxSize, 0, [], 1)
  }

  /** Sum of the recorded `size` fields: the number of players held, when
      the sizes are true. */
  function SumSizes(pods: seq<Pod>): (r: int)
    ensures SizesMatch(pods) ==> r == |Members(pods)|
    decreases |pods|
  {
    if |pods| == 0 then 0
    else
      assert SizesMatch(pods) ==> pods[0].size == |pods[0].players| && SizesMatch(pods[1..]);
      pods[0].size + SumSizes(pods[1..])
  }

  /** The recorded `size` fields, in pod order. */
  function SizesOf(pods: seq<Pod>): (r: seq<int>)
    ensures |r| == |pods|
    ensures forall j :: 0 <= j < |pods| ==> r[j] == pods[j].size
  {
    seq(|pods|, j requires 0 <= j < |pods| => pods[j].size)
  }

  /** Smallest element of a non-empty sequence. */
  function SeqMin(s: seq<int>): (m: int)
    requires |s| > 0
    ensures forall j :: 0 <= j < |s| ==> m <= s[j]
    ensures exists j :: 0 <= j < |s| && s[j] == m
  {
    if |s| == 1 then s[0]
    else
      var rest := SeqMin(s[1..]);
      assert forall j :: 1 <= j < |s| ==> s[j] == s[1..][j - 1];
      if s[0] <= rest then s[0] else rest
  }

  /** Largest element of a non-empty sequence. */
  function SeqMax(s: seq<int>): (m: int)
    requires |s| > 0
    ensures forall j :: 0 <= j < |s| ==> s[j] <= m
    ensures exists j :: 0 <= j < |s| && s[j] == m
  {
    if |s| == 1 then s[0]
    else
      var rest := SeqMax(s[1..]);
      assert forall j :: 1 <= j < |s| ==> s[j] == s[1..][j - 1];
      if s[0] >= rest then s[0] else rest
  }

  /** An exact quotient, standing for Python's float average. */
  datatype Ratio = Ratio(num: int, den: int)

  /** The statistics dictionary. With no pods it only holds zero counts and
      a zero average; otherwise it also holds the min/max pod size and the
      list of sizes. */
  datatype Statistics =
    | NoPods
    | Summary(totalPods: nat, totalPlayers: int, minPodSize: int, maxPodSize: int, podSizes: seq<int>)
  {
    function TotalPods(): nat {
      if NoPods? then 0 else totalPods
    }

    function TotalPlayers(): int {
      if NoPods? then 0 else totalPlayers
    }

    /** `total_players / total_pods`, or 0 with no pods. */
    function AvgPodSize(): Ratio {
      if NoPods? || totalPods == 0 then Ratio(0, 1) else Ratio(totalPlayers, totalPods)
    }
  }

  function GetStatistics(pods: seq<Pod>): (s: Statistics)
    ensures s.NoPods? <==> |pods| == 0
    ensures s.TotalPods() == |pods|
    ensures s.TotalPlayers() == SumSizes(pods)
    ensures s.Summary? ==> s.podSizes == SizesOf(pods)
    ensures s.Summary? ==> forall j :: 0 <= j < |pods| ==> s.minPodSize <= pods[j].size <= s.maxPodSize
    ensures s.Summary? ==> exists j :: 0 <= j < |pods| && pods[j].size == s.minPodSize
    ensures s.Summary? ==> exists j :: 0 <= j < |pods| && pods[j].size == s.maxPodSize
    ensures s.AvgPodSize().den > 0
    ensures s.AvgPodSize().num * |pods| == SumSizes(pods) * s.AvgPodSize().den
  {
    if |pods| == 0 then NoPods
    else
      var sizes := SizesOf(pods);
      Summary(|pods|, SumSizes(pods), SeqMin(sizes), SeqMax(sizes), sizes)
  }

  /** The randomizer object: only its history of assignments is state. */
  datatype PodRandomizer = PodRandomizer(history: seq<seq<Pod>>)
  {
    /** Creates pods from `players`. The shuffle is the caller-supplied
        permutation `shuffled`. An empty list returns no pods and records
        nothing; a zero `maxSize` raises before anything is recorded;
        otherwise the pods are appended to the history. */
    function CreatePods(players: seq<string>, shuffled: seq<string>, targetSize: int, maxSize: int)
      : (r: (Result<seq<Pod>, Error>, PodRandomizer))
      requires multiset(shuffled) == multiset(players)
      ensures |players| == 0 ==> r == (Ok([]), this)
      ensures |players| > 0 ==> (r.0.Ok? <==> maxSize != 0)
      ensures r.0.Ok? ==> Members(r.0.value) == shuffled
      ensures r.0.Ok? ==> multiset(Members(r.0.value)) == multiset(players)
      ensures r.0.Ok? ==> SizesMatch(r.0.value)
      ensures r.0.Ok? && |players| > 0 ==> |r.0.value| > 0 && r.1.history == history + [r.0.value]
      ensures r.0.Err? ==> r.1 == this
    {
      if |players| == 0 then (Ok([]), this)
      else
        assert |shuffled| == |multiset(shuffled)| == |players|;
        var target := EffectiveTarget(targetSize, maxSize);
        match CalculateDistribution(shuffled, target, maxSize)
        case Err(e) => (Err(e), this)
        case Ok(pods) => (Ok(pods), PodRandomizer(history + [pods]))
    }

    /** A copy of the history (equal by value). */
    function GetHistory(): seq<seq<Pod>>
    {
      history
    }

    function ClearHistory(): (r: PodRandomizer)
      ensures |r.GetHistory()| == 0
    {
      PodRandomizer([])
    }
  }
}

=== FILE: pods_examples.dfy ===
/** Worked examples of the distributor on small inputs, including the two
    places where a pod ends up below the nominal minimum of 3. */
module PodsExamples {
  import opened Wrappers
  import opened PyOps
  import opened Pods
  import opened PodsProofs

  /** The balanced path does not guarantee 3 players per pod: 5 players
      with maximum 4 give `k = 2`, requested sizes 3 and 2; the second is
      clamped to 3 but only 2 players are left to slice. */
  lemma BalancedPodCanBeUndersized()
    ensures CalculateDistribution(["a", "b", "c", "d", "e"], 4, 4)
            == Ok([Pod(1, ["a", "b", "c"], 3), Pod(2, ["d", "e"], 2)])
  {
    var players := ["a", "b", "c", "d", "e"];
    assert MinPods(5, 4) == 2 && MaxPods(5, 4) == 2;
    assert FloorDiv(5, 2) == 2 && FloorMod(5, 2) == 1;
    assert Slice(players, 0, 3) == ["a", "b", "c"];
    assert Slice(players, 3, 6) == ["d", "e"];
    var c := BuildCandidate(players, 2, 1, 2, 4, 0, 0);
    assert RequestedSize(2, 1, 0) == 3 && Clamp(3, 3, 4) == 3;
    assert RequestedSize(2, 1, 1) == 2 && Clamp(3, 2, 4) == 3;
    assert BuildCandidate(players, 2, 1, 2, 4, 2, 6) == ([], 6);
    assert [Pod(2, ["d", "e"], 2)] + [] == [Pod(2, ["d", "e"], 2)];
    assert BuildCandidate(players, 2, 1, 2, 4, 1, 3) == ([Pod(2, ["d", "e"], 2)], 6);
    assert c == ([Pod(1, ["a", "b", "c"], 3)] + [Pod(2, ["d", "e"], 2)], 6);
    assert Search(players, 2, 2, 4) == Some(c.0);
    assert Search(players, MinPods(|players|, 4), MaxPods(|players|, 4), 4) == Some(c.0);
    assert |c.0| > 0;
    assert c.0 == [Pod(1, ["a", "b", "c"], 3), Pod(2, ["d", "e"], 2)];
    assert CalculateDistribution(players, 4, 4) == Ok(c.0);
  }

  /** Nine players with maximum 4 make three pods of three, whatever the
      shuffle: `k = 3` and every share is 3, so no pod takes four and
      leaves a single player for the last. */
  lemma NinePlayersMaxFour(rz: PodRandomizer, players: seq<string>, shuffled: seq<string>,
                           targetSize: int)
    requires multiset(shuffled) == multiset(players)
    requires |players| == 9
    ensures var pods := rz.CreatePods(players, shuffled, targetSize, 4).0.value;
            && |shuffled| == 9
            && |pods| == 3
            && pods[0].players == shuffled[0..3]
            && pods[1].players == shuffled[3..6]
            && pods[2].players == shuffled[6..9]
  {
    assert |shuffled| == |multiset(shuffled)| == 9;
    assert MinPods(9, 4) == 3;
    assert FloorDiv(9, 3) == 3;
    CreatePodsEvenSplit(rz, players, shuffled, targetSize, 4);
    NineSplitInThrees(shuffled, rz.CreatePods(players, shuffled, targetSize, 4).0.value);
  }

  /** An even split of 9 players into 3 pods is three runs of three. */
  lemma NineSplitInThrees(shuffled: seq<string>, pods: seq<Pod>)
    requires |shuffled| == 9 && EvenSplit(shuffled, 3, pods)
    ensures |pods| == 3
    ensures pods[0].players == shuffled[0..3]
    ensures pods[1].players == shuffled[3..6]
    ensures pods[2].players == shuffled[6..9]
  {
    assert FloorDiv(9, 3) == 3 && FloorMod(9, 3) == 0;
    assert pods[0].players == shuffled[0 * 3 + 0..0 * 3 + 0 + 3];
    assert pods[1].players == shuffled[1 * 3 + 0..1 * 3 + 0 + 3];
    assert pods[2].players == shuffled[2 * 3 + 0..2 * 3 + 0 + 3];
  }

  /** Three players always make a single pod of all three, for any
      maximum of at least 3. */
  lemma ThreePlayersOnePod(rz: PodRandomizer, players: seq<string>, shuffled: seq<string>,
                           targetSize: int, maxSize: int)
    requires multiset(shuffled) == multiset(players)
    requires |players| == 3 && maxSize >= MinPodSize
    ensures var r := rz.CreatePods(players, shuffled, targetSize, maxSize);
            r.0 == Ok([Pod(1, shuffled, 3)])
  {
    assert MinPods(3, maxSize) == 1 by {
      DivUnique(3 + maxSize - 1, maxSize, 1, 2);
    }
    CreatePodsBalanced(rz, players, shuffled, targetSize, maxSize);
    var pods := rz.CreatePods(players, shuffled, targetSize, maxSize).0.value;
    assert |pods| == 1;
    var p := pods[0];
    assert pods == [p];
    MembersCons(p, []);
    assert p.players == shuffled;
    assert p.id == 1;
    assert |shuffled| == |multiset(shuffled)| == 3;
    assert p.size == 3;
  }

  /** With a maximum below 3 the balanced range can be empty: 5 players,
      maximum 1 give pod counts from 5 down to 2. The fallback then chunks
      by the clamped target 3, and the remainder of 2 cannot join the
      first pod (3 + 2 > 1), so it stays an undersized pod. */
  lemma FallbackKeepsUndersizedRemainder()
    ensures UsesFallback(["a", "b", "c", "d", "e"], 3, 1)
    ensures CalculateDistribution(["a", "b", "c", "d", "e"], 3, 1)
            == Ok([Pod(1, ["a", "b", "c"], 3), Pod(2, ["d", "e"], 2)])
  {
    var players := ["a", "b", "c", "d", "e"];
    assert MinPods(5, 1) == 5 && MaxPods(5, 3) == 2;
    assert Slice(players, 0, 3) == ["a", "b", "c"];
    assert Slice(players, 3, 5) == ["d", "e"];
    var p1 := [Pod(1, ["a", "b", "c"], 3)];
    var p2 := p1 + [Pod(2, ["d", "e"], 2)];
    assert p2 == [Pod(1, ["a", "b", "c"], 3), Pod(2, ["d", "e"], 2)];
    assert MaxPods(5, 3) == 2 && MinPods(5, 1) == 5;
    assert Search(players, 5, 2, 1) == None;
    assert SimpleLoop(players, 3, 1, 5, p2, 3) == p2;
    assert SimpleLoop(players, 3, 1, 3, p1, 2) == p2;
    assert SimpleLoop(players, 3, 1, 0, [], 1) == p2;
    assert SimpleDistribution(players, 3, 1) == p2;
    assert Search(players, MinPods(|players|, 1), MaxPods(|players|, 3), 1) == None;
  }

  /** The sequential fallback merges a short remainder when there is room:
      7 players with target 3 and maximum 4 give pods of 3 and 4. */
  lemma FallbackMergesRemainder()
    ensures SimpleDistribution(["a", "b", "c", "d", "e", "f", "g"], 3, 4)
            == [Pod(1, ["a", "b", "c"], 3), Pod(2, ["d", "e", "f", "g"], 4)]
  {
    var players := ["a", "b", "c", "d", "e", "f", "g"];
    var p1 := [Pod(1, ["a", "b", "c"], 3)];
    var p2 := p1 + [Pod(2, ["d", "e", "f"], 3)];
    var last := Pod(2, ["d", "e", "f", "g"], 4);
    // Pod 1: a full chunk of 3.
    assert Slice(players, 0, 3) == ["a", "b", "c"];
    assert [] + [Pod(1, ["a", "b", "c"], 3)] == p1;
    assert SimpleLoop(players, 3, 4, 0, [], 1) == SimpleLoop(players, 3, 4, 3, p1, 2);
    // Pod 2: another full chunk of 3, leaving 1 player.
    assert Slice(players, 3, 6) == ["d", "e", "f"];
    assert SimpleLoop(players, 3, 4, 3, p1, 2) == SimpleLoop(players, 3, 4, 6, p2, 3);
    // The last player joins pod 2, which then holds 4 <= maxSize.
    assert players[6..] == ["g"];
    assert p2[1].players + players[6..] == ["d", "e", "f", "g"];
    assert p2[..1] == p1;
    assert SimpleLoop(players, 3, 4, 6, p2, 3) == p1 + [last];
    assert p1 + [last] == [Pod(1, ["a", "b", "c"], 3), last];
  }

  /** Statistics of pods of sizes 4, 3 and 5. */
  lemma StatisticsExample()
    ensures var s := GetStatistics([Pod(1, [], 4), Pod(2, [], 3), Pod(3, [], 5)]);
            && s.TotalPlayers() == 12 && s.TotalPods() == 3
            && s.AvgPodSize() == Ratio(12, 3)
            && s.Summary? && s.minPodSize == 3 && s.maxPodSize == 5
            && s.podSizes == [4, 3, 5]
  {
    var pods := [Pod(1, [], 4), Pod(2, [], 3), Pod(3, [], 5)];
    var s := GetStatistics(pods);
    assert SumSizes(pods[2..]) == 5;
    assert SumSizes(pods[1..]) == 8;
  }
}

=== FILE: pods_proofs.dfy ===
/** Properties of the pod distributor that relate several of its parts:
    when the balanced search succeeds at its first candidate, what the
    sequential fallback produces, and the overall shape of `CreatePods`. */
module PodsProofs {
  import opened Wrappers
  import opened PyOps
  import opened Pods

  /** The first candidate pod count `k = ceil(n / maxSize)` for `n >= 1`
      players and a positive `maxSize`: `1 <= k <= n`, every requested pod
      size is between 1 and `maxSize`. */
  lemma FirstCandidateArithmetic(n: int, maxSize: int)
    requires n >= 1 && maxSize >= 1
    ensures var k := MinPods(n, maxSize);
            && 1 <= k <= n
            && 1 <= FloorDiv(n, k) <= maxSize
            && (FloorMod(n, k) > 0 ==> FloorDiv(n, k) + 1 <= maxSize)
  {
    var k := MinPods(n, maxSize);
    PositiveFactor(maxSize, k);
    MulLowerBound(maxSize, k - 1);
    var base := FloorDiv(n, k);
    var rem := FloorMod(n, k);
    assert n == k * base + rem && 0 <= rem < k;
    PositiveFactor(k, base + 1);
    assert base >= 0;
    assert k * (base + 1) > n >= k * base;
    QuotientBound(n, k, base, maxSize);
  }

  /** A product with a positive left factor is positive only if the right
      one is. */
  lemma PositiveFactor(a: int, b: int)
    requires a >= 1 && a * b >= 1
    ensures b >= 1
  {
    if b <= 0 {
      MulMonotone(b, 0, a);
    }
  }

  lemma MulLowerBound(m: int, b: int)
    requires m >= 1 && b >= 0
    ensures m * b >= b
  {
    MulMonotone(1, m, b);
  }

  /** For `base = n / k` with `n <= k * maxSize`, `base <= maxSize`, and the
      extra player of a non-zero remainder still fits. */
  lemma QuotientBound(n: int, k: int, base: int, maxSize: int)
    requires k >= 1 && base >= 0 && maxSize >= 1
    requires k * base <= n <= k * maxSize
    requires maxSize * (k - 1) < n
    ensures base <= maxSize
    ensures n > k * base ==> base + 1 <= maxSize
  {
    if base > maxSize {
      MulMonotone(maxSize + 1, base, k);
    }
  }

  lemma MulMonotone(a: int, b: int, m: int)
    requires a <= b && m >= 0
    ensures m * a <= m * b
  {
  }

  /** `ceil(n / maxSize) <= ceil(n / targetSize)` whenever
      `1 <= targetSize <= maxSize`: the balanced search's range is not
      empty. */
  lemma PodRangeNonEmpty(n: int, targetSize: int, maxSize: int)
    requires n >= 1 && 1 <= targetSize <= maxSize
    ensures MinPods(n, maxSize) <= MaxPods(n, targetSize)
  {
    var a := MinPods(n, maxSize);
    var c := MaxPods(n, targetSize);
    assert targetSize * c >= n;
    MulMonotone(targetSize, maxSize, c);
    assert c >= 0;
    assert maxSize * c >= n;
    assert maxSize * a <= n + maxSize - 1;
    if a > c {
      MulMonotone(c + 1, a, maxSize);
    }
  }

  /** The candidate's final index is at least the number of players the
      unclamped requests ask for, as long as no request exceeds `maxSize`
      (the clamp then only raises sizes). */
  lemma {:induction false} CandidateCoverage(base: int, rem: int, k: int,
                                             maxSize: int, i: nat, index: nat)
    requires base >= 0 && 0 <= rem <= k && i <= k
    requires base <= maxSize && (rem > 0 ==> base + 1 <= maxSize)
    ensures CandidateEnd(base, rem, k, maxSize, i, index)
            >= index + (k - i) * base + Max(0, rem - i)
    decreases k - i
  {
    if i < k {
      var requested := RequestedSize(base, rem, i);
      var podSize := if requested == 0 then 0 else Clamp(MinPodSize, requested, maxSize);
      assert podSize >= requested;
      CandidateCoverage(base, rem, k, maxSize, i + 1, index + podSize);
      CoverageStep(index, podSize, base, rem, k, i);
    }
  }

  /** A pod of at least the requested size advances the coverage bound
      by one position. */
  lemma {:induction false} CoverageStep(index: int, podSize: int, base: int, rem: int, k: int, i: int)
    requires podSize >= RequestedSize(base, rem, i)
    ensures index + podSize + (k - (i + 1)) * base + Max(0, rem - (i + 1))
            >= index + (k - i) * base + Max(0, rem - i)
  {
    assert (k - i) * base == base + (k - (i + 1)) * base;
  }

  /** With every request between 3 and `maxSize` the clamp changes
      nothing, so the index after positions `[i, m)` is exact: `base` per
      position plus one for each position below `rem`. */
  lemma {:induction false} CandidateEndExact(base: int, rem: int, m: int,
                                             maxSize: int, i: nat, index: nat)
    requires MinPodSize <= base <= maxSize && (rem > 0 ==> base + 1 <= maxSize)
    requires i <= m
    ensures CandidateEnd(base, rem, m, maxSize, i, index)
            == index + (m - i) * base + Max(0, Min(m, rem) - i)
    decreases m - i
  {
    if i < m {
      var requested := RequestedSize(base, rem, i);
      assert Clamp(MinPodSize, requested, maxSize) == requested;
      var next: nat := index + requested;
      CandidateEndExact(base, rem, m, maxSize, i + 1, next);
      ExactStep(base, rem, m, i, index);
    }
  }

  /** One position of `CandidateEndExact`'s closed form. */
  lemma ExactStep(base: int, rem: int, m: int, i: int, index: int)
    requires i < m
    ensures index + RequestedSize(base, rem, i) + (m - (i + 1)) * base + Max(0, Min(m, rem) - (i + 1))
            == index + (m - i) * base + Max(0, Min(m, rem) - i)
  {
    assert (m - i) * base == base + (m - (i + 1)) * base;
  }

  /** The pods of the first candidate `k = ceil(n / maxSize)`. */
  function FirstCandidate(players: seq<string>, maxSize: int): seq<Pod>
    requires maxSize > 0
  {
    var k := MinPods(|players|, maxSize);
    if k >= 1 then Candidate(players, k, maxSize).0 else []
  }

  /** With at least one player and `maxSize >= 3`, the first candidate is
      accepted: the distribution has exactly `ceil(n / maxSize)` pods with
      ids `1..k`, each of at most `maxSize` players, and the fallback is not
      taken. */
  lemma FirstCandidateAccepted(players: seq<string>, targetSize: int, maxSize: int)
    requires |players| >= 1 && maxSize >= MinPodSize && 1 <= targetSize <= maxSize
    ensures !UsesFallback(players, targetSize, maxSize)
    ensures CalculateDistribution(players, targetSize, maxSize) == Ok(FirstCandidate(players, maxSize))
    ensures |FirstCandidate(players, maxSize)| == MinPods(|players|, maxSize)
    ensures SequentialIds(FirstCandidate(players, maxSize))
    ensures WithinMax(FirstCandidate(players, maxSize), maxSize)
  {
    var n := |players|;
    var k := MinPods(n, maxSize);
    FirstCandidateCovers(players, maxSize);
    PodRangeNonEmpty(n, targetSize, maxSize);
    var c := Candidate(players, k, maxSize);
    assert Search(players, k, MaxPods(n, targetSize), maxSize) == Some(c.0);
  }

  /** The first candidate `k = ceil(n / maxSize)` reaches the end of the
      players with exactly `k` pods numbered `1..k`. */
  lemma FirstCandidateCovers(players: seq<string>, maxSize: int)
    requires |players| >= 1 && maxSize >= MinPodSize
    ensures var k := MinPods(|players|, maxSize);
            var c := Candidate(players, k, maxSize);
            && k >= 1 && c.1 >= |players| && |c.0| == k && SequentialIds(c.0)
  {
    var n := |players|;
    var k := MinPods(n, maxSize);
    FirstCandidateArithmetic(n, maxSize);
    var base := FloorDiv(n, k);
    var rem := FloorMod(n, k);
    CandidateCoverage(base, rem, k, maxSize, 0, 0);
    CoverageReachesEnd(n, k, base, rem, Candidate(players, k, maxSize).1);
  }

  /** The pods split `players` evenly in order into `k` pods: with
      `base = n // k` and `rem = n % k`, pod `j` holds the `base` players
      (one more when `j < rem`) that follow the earlier pods. */
  predicate EvenSplit(players: seq<string>, k: int, pods: seq<Pod>)
    requires k >= 1
  {
    var base := FloorDiv(|players|, k);
    var rem := FloorMod(|players|, k);
    && |pods| == k
    && forall j :: 0 <= j < k ==>
         var start := j * base + Min(j, rem);
         && 0 <= start <= start + RequestedSize(base, rem, j) <= |players|
         && pods[j].players == players[start..start + RequestedSize(base, rem, j)]
  }

  /** When the first candidate's share `n // k` is at least 3, no clamp
      applies and its pods split the players evenly in order. With 9
      players and maximum 4 this is 3, 3, 3. */
  lemma FirstCandidateSizes(players: seq<string>, maxSize: int)
    requires |players| >= 1 && maxSize >= MinPodSize
    requires FloorDiv(|players|, MinPods(|players|, maxSize)) >= MinPodSize
    ensures MinPods(|players|, maxSize) >= 1
    ensures EvenSplit(players, MinPods(|players|, maxSize), FirstCandidate(players, maxSize))
  {
    var n := |players|;
    var k := MinPods(n, maxSize);
    FirstCandidateArithmetic(n, maxSize);
    EvenPods(players, k, maxSize, Candidate(players, k, maxSize).0);
  }

  /** All pods of an unclamped candidate `k`, given the per-pod statement
      of `Candidate`. */
  lemma EvenPods(players: seq<string>, k: int, maxSize: int, pods: seq<Pod>)
    requires 1 <= k && |pods| == k
    requires var base := FloorDiv(|players|, k);
             var rem := FloorMod(|players|, k);
             MinPodSize <= base <= maxSize && (rem > 0 ==> base + 1 <= maxSize)
    requires PodsAtStart(players, k, maxSize, pods)
    ensures EvenSplit(players, k, pods)
  {
    forall j | 0 <= j < k
      ensures var start := j * FloorDiv(|players|, k) + Min(j, FloorMod(|players|, k));
              && 0 <= start <= start + RequestedSize(FloorDiv(|players|, k), FloorMod(|players|, k), j) <= |players|
              && pods[j].players == players[start..start + RequestedSize(FloorDiv(|players|, k), FloorMod(|players|, k), j)]
    {
      EvenPod(players, k, maxSize, j, pods[j]);
    }
  }

  /** Pod `j` of an unclamped candidate `k`, given the per-pod statement of
      `Candidate`. */
  lemma EvenPod(players: seq<string>, k: int, maxSize: int, j: int, pod: Pod)
    requires 1 <= k && 0 <= j < k
    requires var base := FloorDiv(|players|, k);
             var rem := FloorMod(|players|, k);
             MinPodSize <= base <= maxSize && (rem > 0 ==> base + 1 <= maxSize)
    requires var start := CandidateStart(|players|, k, maxSize, j);
             pod.players == Slice(players, start, start + CandidateSize(|players|, k, maxSize, j))
    ensures var base := FloorDiv(|players|, k);
            var rem := FloorMod(|players|, k);
            var start := j * base + Min(j, rem);
            && 0 <= start <= start + RequestedSize(base, rem, j) <= |players|
            && pod.players == players[start..start + RequestedSize(base, rem, j)]
  {
    var n := |players|;
    var base := FloorDiv(n, k);
    var rem := FloorMod(n, k);
    CandidateEndExact(base, rem, j, maxSize, 0, 0);
    assert CandidateSize(n, k, maxSize, j) == RequestedSize(base, rem, j);
    EvenPodFits(n, k, base, rem, j);
  }

  /** Pod `j`'s even share ends within the players. */
  lemma EvenPodFits(n: int, k: int, base: int, rem: int, j: int)
    requires 0 <= j < k && base >= 0 && 0 <= rem < k && n == k * base + rem
    ensures 0 <= j * base
    ensures j * base + Min(j, rem) + RequestedSize(base, rem, j) <= n
  {
    MulMonotone(0, j, base);
    MulMonotone(j + 1, k, base);
    assert (j + 1) * base == j * base + base;
  }

  lemma CoverageReachesEnd(n: int, k: int, base: int, rem: int, end: int)
    requires n == k * base + rem && rem >= 0
    requires end >= 0 + (k - 0) * base + Max(0, rem - 0)
    ensures end >= n
  {
  }

  /** The sequential fallback only runs when `maxSize` is 1 or 2 (for a
      target the caller has clamped). */
  lemma FallbackOnlyBelowMinimum(players: seq<string>, targetSize: int, maxSize: int)
    requires |players| >= 1 && maxSize != 0
    requires UsesFallback(players, EffectiveTarget(targetSize, maxSize), maxSize)
    ensures 1 <= maxSize < MinPodSize
  {
    if maxSize >= MinPodSize {
      FirstCandidateAccepted(players, EffectiveTarget(targetSize, maxSize), maxSize);
    } else if maxSize < 0 {
      NegativeMaximumNeverFallsBack(players, targetSize, maxSize);
    }
  }

  /** With a negative maximum every request is clamped up to 3, the range
      of pod counts starts at or below 1, and its last count
      `ceil(n / 3)` covers the players: the balanced search succeeds. */
  lemma NegativeMaximumNeverFallsBack(players: seq<string>, targetSize: int, maxSize: int)
    requires |players| >= 1 && maxSize < 0
    ensures !UsesFallback(players, EffectiveTarget(targetSize, maxSize), maxSize)
  {
    var n := |players|;
    var t := EffectiveTarget(targetSize, maxSize);
    assert t == MinPodSize;
    var last := MaxPods(n, t);
    assert 1 <= last <= n;
    MinPodsNegative(n, maxSize);
    ShareIsPositive(n, last);
    var base := FloorDiv(n, last);
    CandidateEndAllThree(base, FloorMod(n, last), last, maxSize, 0, 0);
    assert Covers(players, last, maxSize);
    var found := Search(players, MinPods(n, maxSize), last, maxSize);
    assert found.Some?;
  }

  /** For a negative maximum, `ceil(n / maxSize)` as floor division gives
      at most 1. */
  lemma MinPodsNegative(n: int, maxSize: int)
    requires n >= 1 && maxSize < 0
    ensures MinPods(n, maxSize) <= 1
  {
    var q := MinPods(n, maxSize);
    assert maxSize * q >= n + maxSize - 1 >= maxSize;
    if q > 1 {
      MulMonotone(2, q, -maxSize);
    }
  }

  /** With `maxSize < 3` and every request non-empty, each position
      advances the index by exactly 3. */
  lemma {:induction false} CandidateEndAllThree(base: int, rem: int, k: int,
                                                maxSize: int, i: nat, index: nat)
    requires base >= 1 && maxSize < MinPodSize && i <= k
    ensures CandidateEnd(base, rem, k, maxSize, i, index) == index + MinPodSize * (k - i)
    decreases k - i
  {
    if i < k {
      assert Clamp(MinPodSize, RequestedSize(base, rem, i), maxSize) == MinPodSize;
      CandidateEndAllThree(base, rem, k, maxSize, i + 1, index + MinPodSize);
    }
  }

  /** `create_pods` does not depend on the requested target size: for a
      maximum of at least 3 the first candidate is always taken, and below
      3 the target is clamped to 3 whatever was asked. */
  lemma TargetDoesNotMatter(rz: PodRandomizer, players: seq<string>, shuffled: seq<string>,
                            targetSize: int, otherTarget: int, maxSize: int)
    requires multiset(shuffled) == multiset(players)
    ensures rz.CreatePods(players, shuffled, targetSize, maxSize)
            == rz.CreatePods(players, shuffled, otherTarget, maxSize)
  {
    if |players| >= 1 && maxSize >= MinPodSize {
      CreatePodsBalanced(rz, players, shuffled, targetSize, maxSize);
      CreatePodsBalanced(rz, players, shuffled, otherTarget, maxSize);
    } else if |players| >= 1 {
      assert EffectiveTarget(targetSize, maxSize) == EffectiveTarget(otherTarget, maxSize);
    }
  }

  /** Reference numbers for the fallback started with `p` pods already
      built and `remaining > 0` players left, every pod so far full: the
      pod count and the size of the last pod. */
  function FallbackCount(p: nat, remaining: nat, t: int, maxSize: int): int
    requires t >= 1
  {
    var q := remaining / t;
    var rr := remaining % t;
    if rr == 0 then p + q
    else if rr < MinPodSize && p + q > 0 && t + rr <= maxSize then p + q
    else p + q + 1
  }

  function FallbackLast(p: nat, remaining: nat, t: int, maxSize: int): int
    requires t >= 1
  {
    var q := remaining / t;
    var rr := remaining % t;
    if rr == 0 then t
    else if rr < MinPodSize && p + q > 0 && t + rr <= maxSize then t + rr
    else rr
  }

  /** Euclidean quotient and remainder are unique. */
  lemma DivUnique(a: int, t: int, q: int, rr: int)
    requires t >= 1 && a == t * q + rr && 0 <= rr < t
    ensures a / t == q && a % t == rr
  {
    var q' := a / t;
    var rr' := a % t;
    assert t * q' + rr' == t * q + rr;
    if q' > q {
      MulMonotone(q + 1, q', t);
    } else if q' < q {
      MulMonotone(q' + 1, q, t);
    }
  }

  lemma DivStep(r: int, t: int)
    requires t >= 1 && r > t
    ensures (r - t) / t == r / t - 1 && (r - t) % t == r % t
  {
    var q := r / t;
    var rr := r % t;
    assert r - t == t * (q - 1) + rr;
    DivUnique(r - t, t, q - 1, rr);
  }

  /** Small remainders: `r / t == 0` and `r % t == r` for `0 <= r < t`. */
  lemma DivSmall(r: int, t: int)
    requires 0 <= r < t
    ensures r / t == 0 && r % t == r
  {
    DivUnique(r, t, 0, r);
  }

  /** The shape claim for the loop started at `i` with `pods` built. */
  predicate ShapeFrom(players: seq<string>, t: int, maxSize: int, i: nat, pods: seq<Pod>, podId: int)
    requires t >= MinPodSize && i < |players|
  {
    var r := SimpleLoop(players, t, maxSize, i, pods, podId);
    && |r| == FallbackCount(|pods|, |players| - i, t, maxSize)
    && |r| > 0
    && |r[|r| - 1].players| == FallbackLast(|pods|, |players| - i, t, maxSize)
  }

  /** The merge branch of one fallback step. */
  lemma ShapeMergeStep(players: seq<string>, t: int, maxSize: int, i: nat, pods: seq<Pod>, podId: int)
    requires t >= MinPodSize
    requires SimpleLoopInv(players, t, i, pods, podId)
    requires i < |players|
    requires |players| - i < MinPodSize && |pods| > 0
    requires |pods[|pods| - 1].players| + (|players| - i) <= maxSize
    ensures ShapeFrom(players, t, maxSize, i, pods, podId)
  {
    DivSmall(|players| - i, t);
    var last := pods[|pods| - 1];
    var merged := last.players + players[i..];
    assert |last.players| == t;
    var r := SimpleLoop(players, t, maxSize, i, pods, podId);
    assert r == pods[..|pods| - 1] + [last.(players := merged, size := |merged|)];
    assert |r| == |pods| && |r[|r| - 1].players| == t + (|players| - i);
  }

  /** A fallback step that creates the last pod. */
  lemma ShapeFinalChunk(players: seq<string>, t: int, maxSize: int, i: nat, pods: seq<Pod>, podId: int)
    requires t >= MinPodSize
    requires SimpleLoopInv(players, t, i, pods, podId)
    requires i < |players| && |players| - i <= t
    requires !(|players| - i < MinPodSize && |pods| > 0 && |pods[|pods| - 1].players| + (|players| - i) <= maxSize)
    ensures ShapeFrom(players, t, maxSize, i, pods, podId)
  {
    var remaining := |players| - i;
    if remaining == t {
      DivUnique(remaining, t, 1, 0);
    } else {
      DivSmall(remaining, t);
      if |pods| > 0 && remaining < MinPodSize {
        assert |pods[|pods| - 1].players| == t;
      }
    }
  }

  lemma {:induction false} SimpleLoopShape(players: seq<string>, t: int, maxSize: int,
                                           i: nat, pods: seq<Pod>, podId: int)
    requires t >= MinPodSize
    requires SimpleLoopInv(players, t, i, pods, podId)
    requires i < |players|
    ensures ShapeFrom(players, t, maxSize, i, pods, podId)
    decreases |players| - i
  {
    var remaining := |players| - i;
    var p := |pods|;
    if remaining < MinPodSize && p > 0 && |pods[p - 1].players| + remaining <= maxSize {
      ShapeMergeStep(players, t, maxSize, i, pods, podId);
    } else if remaining <= t {
      ShapeFinalChunk(players, t, maxSize, i, pods, podId);
    } else {
      var chunk := Slice(players, i, i + t);
      var pods' := pods + [Pod(podId, chunk, |chunk|)];
      SimpleChunkStep(players, t, i, pods, podId, t);
      SimpleLoopShape(players, t, maxSize, i + t, pods', podId + 1);
      ShapeFullChunk(players, t, maxSize, i, pods, podId);
    }
  }

  /** A fallback step that creates a full pod and continues. */
  lemma ShapeFullChunk(players: seq<string>, t: int, maxSize: int, i: nat, pods: seq<Pod>, podId: int)
    requires t >= MinPodSize
    requires i + t < |players|
    requires var chunk := Slice(players, i, i + t);
             ShapeFrom(players, t, maxSize, i + t, pods + [Pod(podId, chunk, |chunk|)], podId + 1)
    ensures ShapeFrom(players, t, maxSize, i, pods, podId)
  {
    var chunk := Slice(players, i, i + t);
    var pods' := pods + [Pod(podId, chunk, |chunk|)];
    var remaining := |players| - i;
    DivStep(remaining, t);
    assert remaining - t == |players| - (i + t);
    assert |pods'| == |pods| + 1;
    assert FallbackCount(|pods'|, remaining - t, t, maxSize) == FallbackCount(|pods|, remaining, t, maxSize);
    assert FallbackLast(|pods'|, remaining - t, t, maxSize) == FallbackLast(|pods|, remaining, t, maxSize);
    assert SimpleLoop(players, t, maxSize, i, pods, podId) == SimpleLoop(players, t, maxSize, i + t, pods', podId + 1);
  }

  /** The fallback's outcome for `n >= 1` players and a target `t >= 3`,
      with `q = n / t` full pods and remainder `rr = n % t`: no remainder
      gives `q` full pods; a remainder of 3 or more (or no full pod to merge
      into) becomes its own last pod; a remainder of 1 or 2 joins the last
      full pod exactly when `t + rr <= maxSize`, and otherwise stays an
      undersized last pod. */
  lemma FallbackShape(players: seq<string>, t: int, maxSize: int)
    requires |players| >= 1 && t >= MinPodSize
    ensures var r := SimpleDistribution(players, t, maxSize);
            var n := |players|;
            var q := n / t;
            var rr := n % t;
            && |r| > 0
            && (forall j :: 0 <= j < |r| - 1 ==> |r[j].players| == t)
            && (rr == 0 ==> |r| == q && |r[|r| - 1].players| == t)
            && (rr != 0 && (rr >= MinPodSize || q == 0) ==> |r| == q + 1 && |r[|r| - 1].players| == rr)
            && (rr != 0 && rr < MinPodSize && q > 0 && t + rr <= maxSize ==> |r| == q && |r[|r| - 1].players| == t + rr)
            && (rr != 0 && rr < MinPodSize && q > 0 && t + rr > maxSize ==> |r| == q + 1 && |r[|r| - 1].players| == rr)
  {
    SimpleLoopShape(players, t, maxSize, 0, [], 1);
  }

  /** No fallback pod exceeds `maxSize` when `maxSize` is at least the
      target: only the merge can exceed the target, and it is guarded. */
  lemma FallbackWithinMax(players: seq<string>, t: int, maxSize: int)
    requires |players| >= 1 && MinPodSize <= t <= maxSize
    ensures WithinMax(SimpleDistribution(players, t, maxSize), maxSize)
  {
    FallbackShape(players, t, maxSize);
    var r := SimpleDistribution(players, t, maxSize);
    var n := |players|;
    assert n % t < t;
  }

  /** Reached from `CreatePods`, the fallback never merges: it only runs
      with `maxSize < 3`, and a merge needs room for a full pod plus the
      remainder. Every pod then holds at most the target. */
  lemma CreatePodsFallbackNeverMerges(players: seq<string>, targetSize: int, maxSize: int)
    requires |players| >= 1 && maxSize != 0
    requires UsesFallback(players, EffectiveTarget(targetSize, maxSize), maxSize)
    ensures var t := EffectiveTarget(targetSize, maxSize);
            CalculateDistribution(players, t, maxSize) == Ok(SimpleDistribution(players, t, maxSize))
            && WithinMax(SimpleDistribution(players, t, maxSize), t)
  {
    var t := EffectiveTarget(targetSize, maxSize);
    FallbackOnlyBelowMinimum(players, targetSize, maxSize);
    FallbackShape(players, t, maxSize);
    assert |players| % t < t;
  }

  /** The whole of `create_pods` for a non-empty roster and
      `maxSize >= 3`: the pods are the shuffled players cut into
      `k = ceil(n / maxSize)` consecutive pods with ids `1..k`, pod `j`
      sliced from where the earlier pods end and asking for its clamped
      share of `n // k` (one more for the first `n % k` pods); none is
      above `maxSize`, each records its true size, and they are appended to
      the history. */
  lemma CreatePodsBalanced(rz: PodRandomizer, players: seq<string>, shuffled: seq<string>,
                           targetSize: int, maxSize: int)
    requires multiset(shuffled) == multiset(players)
    requires |players| >= 1 && maxSize >= MinPodSize
    ensures var r := rz.CreatePods(players, shuffled, targetSize, maxSize);
            var n := |players|;
            var k := MinPods(n, maxSize);
            && r.0.Ok?
            && r.0.value == FirstCandidate(shuffled, maxSize)
            && |r.0.value| == k
            && SequentialIds(r.0.value)
            && WithinMax(r.0.value, maxSize)
            && SizesMatch(r.0.value)
            && Members(r.0.value) == shuffled
            && r.1.GetHistory() == rz.GetHistory() + [r.0.value]
            && k >= 1 && PodsAtStart(shuffled, k, maxSize, r.0.value)
  {
    var n := |players|;
    assert |shuffled| == |multiset(shuffled)| == n;
    FirstCandidateAccepted(shuffled, EffectiveTarget(targetSize, maxSize), maxSize);
    FirstCandidateArithmetic(n, maxSize);
  }

  /** When the share `n // k` is at least 3, `create_pods` splits the
      shuffled players evenly in order: pod `j` holds the next `n // k`
      players, one more for the first `n % k` pods. */
  lemma CreatePodsEvenSplit(rz: PodRandomizer, players: seq<string>, shuffled: seq<string>,
                            targetSize: int, maxSize: int)
    requires multiset(shuffled) == multiset(players)
    requires |players| >= 1 && maxSize >= MinPodSize
    requires FloorDiv(|players|, MinPods(|players|, maxSize)) >= MinPodSize
    ensures var r := rz.CreatePods(players, shuffled, targetSize, maxSize);
            && MinPods(|players|, maxSize) >= 1
            && r.0.Ok?
            && EvenSplit(shuffled, MinPods(|players|, maxSize), r.0.value)
  {
    assert |shuffled| == |multiset(shuffled)| == |players|;
    CreatePodsBalanced(rz, players, shuffled, targetSize, maxSize);
    FirstCandidateSizes(shuffled, maxSize);
  }

  lemma StatisticsOfCreatedPods(rz: PodRandomizer, players: seq<string>, shuffled: seq<string>,
                                targetSize: int, maxSize: int)
    requires multiset(shuffled) == multiset(players)
    requires maxSize != 0
    ensures var r := rz.CreatePods(players, shuffled, targetSize, maxSize);
            && r.0.Ok?
            && GetStatistics(r.0.value).TotalPlayers() == |players|
            && (GetStatistics(r.0.value).NoPods? <==> |players| == 0)
  {
    assert |shuffled| == |multiset(shuffled)| == |players|;
  }

  /** Clearing empties the log; the next assignment is then its only
      entry. */
  lemma ClearThenCreate(rz: PodRandomizer, players: seq<string>, shuffled: seq<string>,
                        targetSize: int, maxSize: int)
    requires multiset(shuffled) == multiset(players)
    requires |players| >= 1 && maxSize != 0
    ensures var r := rz.ClearHistory().CreatePods(players, shuffled, targetSize, maxSize);
            r.1.GetHistory() == [r.0.value]
  {
    assert |shuffled| == |multiset(shuffled)| == |players|;
  }
}

=== FILE: py_ops.dfy ===
/** Python integer and list primitives that behave differently from their
    Dafny counterparts: floor division, modulo with the sign of the divisor,
    clamped slicing with negative indices, and the `max(lo, min(x, hi))`
    clamp used throughout the program. */
module PyOps {

  function Min(a: int, b: int): int {
    if a <= b then a else b
  }

  function Max(a: int, b: int): int {
    if a >= b then a else b
  }

  /** Python's `max(lo, min(x, hi))`. When `lo <= hi` the result lies in
      `[lo, hi]`: values already in range are kept, smaller ones become
      `lo` and larger ones `hi`. When the range is empty (`hi < lo`) the
      result is `lo` whatever `x` is. */
  function Clamp(lo: int, x: int, hi: int): (r: int)
    ensures r >= lo
    ensures lo <= hi ==> r <= hi
    ensures lo <= x <= hi ==> r == x
    ensures x < lo ==> r == lo
    ensures lo <= hi < x ==> r == hi
    ensures hi < lo ==> r == lo
  {
    Max(lo, Min(x, hi))
  }

  /** Python's `a // b`: the quotient rounded towards negative infinity. */
  function FloorDiv(a: int, b: int): (q: int)
    requires b != 0
    ensures b > 0 ==> b * q <= a < b * q + b
    ensures b < 0 ==> b * q >= a > b * q + b
  {
    if b > 0 then a / b else (-a) / (-b)
  }

  /** Python's `a % b`: the remainder takes the sign of the divisor. */
  function FloorMod(a: int, b: int): (r: int)
    requires b != 0
    ensures a == b * FloorDiv(a, b) + r
    ensures b > 0 ==> 0 <= r < b
    ensures b < 0 ==> b < r <= 0
  {
    a - b * FloorDiv(a, b)
  }

  /** Python's normalisation of a slice bound against a list of length `len`. */
  function SliceBound(x: int, len: nat): (r: nat)
    ensures r <= len
    ensures 0 <= x <= len ==> r == x
  {
    if x < 0 then Max(0, len + x) else Min(x, len)
  }

  /** Python's `s[lo:hi]`: out-of-range bounds are clipped, never an error. */
  function Slice<T>(s: seq<T>, lo: int, hi: int): (r: seq<T>)
    ensures 0 <= lo <= hi ==> r == s[Min(lo, |s|)..Min(hi, |s|)]
    ensures 0 <= lo <= hi ==> |r| <= hi - lo
  {
    var a := SliceBound(lo, |s|);
    var b := SliceBound(hi, |s|);
    if a <= b then s[a..b] else []
  }

  /** Python's `s[lo:]`. */
  function SliceFrom<T>(s: seq<T>, lo: int): (r: seq<T>)
    ensures |r| <= |s|
    ensures lo >= 0 ==> r == s[Min(lo, |s|)..]
    ensures lo < 0 ==> r == s[Max(0, |s| + lo)..]
  {
    Slice(s, lo, |s|)
  }

  /** Adjacent non-negative slices join into one slice. */
  lemma SliceAppend<T>(s: seq<T>, a: int, b: int, c: int)
    requires 0 <= a <= b <= c
    ensures Slice(s, a, b) + Slice(s, b, c) == Slice(s, a, c)
  {
    var n := |s|;
    assert Slice(s, a, b) == s[Min(a, n)..Min(b, n)];
    assert Slice(s, b, c) == s[Min(b, n)..Min(c, n)];
    assert s[Min(a, n)..Min(b, n)] + s[Min(b, n)..Min(c, n)] == s[Min(a, n)..Min(c, n)];
  }
}

=== FILE: terminal.dfy ===
/** The pure rules of the terminal front end: the settings clamps, the
    requested-size clamp, the "at least 3 players" guard, the bounded
    assignment history and its newest-first view. Prompts and rendering are
    replaced by their parsed results. */
module TerminalApp {
  import opened Wrappers
  import opened PyOps
  import opened Pods
  import PodsProofs
  import opened Text
  import opened Players

  /** The configuration the front end reads. */
  datatype Config = Config(defaultPodSize: int, maxPodSize: int, minPodSize: int,
                           autoSave: bool, keepHistory: bool, maxHistoryItems: int)

  /** The configuration used when nothing is stored. */
  const DefaultConfig: Config := Config(4, 8, 3, true, true, 50)

  /** The defaults are settled: the settings menu would store them
      unchanged, the minimum is the distributor's, and an answer that is
      not a number gives the default size of 4, within the maximum of 8. */
  lemma DefaultConfigIsSettled()
    ensures SetDefaultPodSize(DefaultConfig, Some(DefaultConfig.defaultPodSize)) == DefaultConfig
    ensures SetMaxPodSize(DefaultConfig, Some(DefaultConfig.maxPodSize)) == DefaultConfig
    ensures DefaultConfig.minPodSize == MinPodSize
    ensures RequestedPodSize(DefaultConfig, None) == 4 <= DefaultConfig.maxPodSize == 8
    ensures DefaultConfig.keepHistory && DefaultConfig.maxHistoryItems == 50
  {
  }

  /** A stored assignment: when it was made and, per pod, its id, players
      and size. */
  datatype HistoryEntry = HistoryEntry(timestamp: string, pods: seq<Pod>)

  /** Keeps only the most recent `maxItems` entries, with Python's slice
      `history[-maxItems:]` when the list is too long. A zero limit keeps
      everything (`[-0:]` is the whole list); a negative one drops that
      many entries from the front. */
  function TrimHistory<T>(history: seq<T>, maxItems: int): (r: seq<T>)
    ensures maxItems >= 1 ==> |r| == Min(|history|, maxItems) && r == history[|history| - |r|..]
    ensures maxItems == 0 ==> r == history
    ensures maxItems < 0 ==> r == history[Min(-maxItems, |history|)..]
  {
    if |history| > maxItems then SliceFrom(history, -maxItems) else history
  }

  /** `save_to_history`: append the entry, then trim. */
  function SaveToHistory<T>(stored: seq<T>, entry: T, maxItems: int): (r: seq<T>)
    ensures maxItems >= 1 ==> |r| == Min(|stored| + 1, maxItems) && |r| > 0 && r[|r| - 1] == entry
    ensures maxItems >= 1 && |stored| + 1 <= maxItems ==> r == stored + [entry]
    ensures maxItems >= 1 && |stored| + 1 > maxItems
            ==> r == (stored + [entry])[|stored| + 1 - maxItems..]
    ensures maxItems == 0 ==> r == stored + [entry]
  {
    TrimHistory(stored + [entry], maxItems)
  }

  /** Saves several entries one after another. */
  function SaveAll<T>(stored: seq<T>, entries: seq<T>, maxItems: int): seq<T>
    decreases |entries|
  {
    if |entries| == 0 then stored
    else SaveAll(SaveToHistory(stored, entries[0], maxItems), entries[1..], maxItems)
  }

  /** The last `n` elements of `s`. */
  function LastN<T>(s: seq<T>, n: int): seq<T>
    requires 0 <= n <= |s|
  {
    s[|s| - n..]
  }

  lemma LastNOfSuffix<T>(a: seq<T>, k: int, b: seq<T>, n: int)
    requires 0 <= k <= |a| && 0 <= n <= k + |b|
    ensures LastN(LastN(a, k) + b, n) == LastN(a + b, n)
  {
    var x := LastN(a, k) + b;
    var y := a + b;
    forall j | 0 <= j < n
      ensures LastN(x, n)[j] == LastN(y, n)[j]
    {
      var i := |x| - n + j;
      if i < k {
        assert x[i] == a[|a| - k + i];
      } else {
        assert x[i] == b[i - k];
      }
    }
  }

  /** One save leaves the last `min(|stored| + 1, maxItems)` entries. */
  lemma SaveIsLastN<T>(stored: seq<T>, entry: T, maxItems: int)
    requires maxItems >= 1
    ensures SaveToHistory(stored, entry, maxItems)
            == LastN(stored + [entry], Min(|stored| + 1, maxItems))
  {
  }

  /** FIFO eviction: starting from a history within the limit, saving any
      number of entries keeps exactly the most recent `maxItems` of all of
      them, oldest discarded first. */
  lemma {:induction false} FifoEviction<T>(stored: seq<T>, entries: seq<T>, maxItems: int)
    requires maxItems >= 1 && |stored| <= maxItems
    ensures var all := stored + entries;
            SaveAll(stored, entries, maxItems) == LastN(all, Min(|all|, maxItems))
    decreases |entries|
  {
    var all := stored + entries;
    if |entries| == 0 {
      assert all == stored;
    } else {
      var a := stored + [entries[0]];
      var rest := entries[1..];
      var k := Min(|a|, maxItems);
      var next := SaveToHistory(stored, entries[0], maxItems);
      SaveIsLastN(stored, entries[0], maxItems);
      assert SaveAll(stored, entries, maxItems) == SaveAll(next, rest, maxItems);
      FifoEviction(next, rest, maxItems);
      var n := Min(k + |rest|, maxItems);
      LastNOfSuffix(a, k, rest, n);
      assert a + rest == all;
    }
  }

  /** One line of the history view. */
  datatype HistoryLine = HistoryLine(number: int, time: string, podCount: nat, playerCount: int)

  /** `timestamp[:19].replace('T', ' ')`. */
  function TimestampText(timestamp: string): (r: string)
    ensures |r| == Min(|timestamp|, 19)
    ensures forall j :: 0 <= j < |r| ==> r[j] != 'T'
    ensures forall j :: 0 <= j < |r| && timestamp[j] != 'T' ==> r[j] == timestamp[j]
    ensures forall j :: 0 <= j < |r| && timestamp[j] == 'T' ==> r[j] == ' '
  {
    var head := Slice(timestamp, 0, 19);
    seq(|head|, j requires 0 <= j < |head| => if head[j] == 'T' then ' ' else head[j])
  }

  /** One row of the history view: its number, the shown time, the pod
      count, and a player count that is the number of players held when the
      recorded sizes are true. */
  function LineOf(number: int, entry: HistoryEntry): (r: HistoryLine)
    ensures r.number == number && r.podCount == |entry.pods|
    ensures |r.time| == Min(|entry.timestamp|, 19)
    ensures SizesMatch(entry.pods) ==> r.playerCount == |Members(entry.pods)|
  {
    HistoryLine(number, TimestampText(entry.timestamp), |entry.pods|, SumSizes(entry.pods))
  }

  /** `view_history`: the last 10 entries, newest first, numbered from 1,
      each with its pod count and the sum of its pod sizes. */
  function HistoryView(history: seq<HistoryEntry>): (r: seq<HistoryLine>)
    ensures |r| == Min(|history|, 10)
    ensures forall j :: 0 <= j < |r| ==> r[j] == LineOf(j + 1, history[|history| - 1 - j])
  {
    var recent := SliceFrom(history, -10);
    seq(|recent|, j requires 0 <= j < |recent| => LineOf(j + 1, recent[|recent| - 1 - j]))
  }

  /** The names typed into `add_multiple_players`: each line stripped,
      stopping at the first line that strips to nothing. */
  function CollectNames(lines: seq<string>): (r: seq<string>)
    ensures |r| <= |lines|
    ensures forall j :: 0 <= j < |r| ==> r[j] == Strip(lines[j]) && r[j] != []
    ensures |r| < |lines| ==> Strip(lines[|r|]) == []
    decreases |lines|
  {
    if |lines| == 0 || Strip(lines[0]) == [] then []
    else [Strip(lines[0])] + CollectNames(lines[1..])
  }

  /** `add_multiple_players`: every collected name goes through
      `add_player`; the result is the number added and the new roster. The
      appended names are exactly the admitted ones: typed names, in typed
      order, each new to the roster and to the earlier lines in any letter
      case. */
  function AddMultiple(roster: seq<string>, lines: seq<string>): (r: (nat, seq<string>))
    ensures |r.1| == |roster| + r.0 && r.1[..|roster|] == roster
    ensures r.1[|roster|..] == AdmittedNames(roster, CollectNames(lines))
    ensures IsSubsequence(r.1[|roster|..], CollectNames(lines))
    ensures FreshNames(roster, r.1[|roster|..])
    ensures var names := CollectNames(lines);
            forall j :: 0 <= j < |names| ==> Known(r.1, names[j])
    ensures r.0 <= |CollectNames(lines)|
    ensures WellFormed(roster) ==> WellFormed(r.1)
  {
    var names := CollectNames(lines);
    var r := ImportPlayers(roster, names);
    CollectedAreKnown(roster, names, lines);
    SubsequenceLength(r.1[|roster|..], StripAll(names));
    ImportAppendsAdmitted(roster, names);
    ImportAddsFreshNames(roster, names);
    CollectedAreStripped(lines);
    r
  }

  /** The collected names are already stripped. */
  lemma CollectedAreStripped(lines: seq<string>)
    ensures StripAll(CollectNames(lines)) == CollectNames(lines)
  {
    var names := CollectNames(lines);
    forall j | 0 <= j < |names|
      ensures StripAll(names)[j] == names[j]
    {
      StripIdempotent(lines[j]);
    }
  }

  lemma CollectedAreKnown(roster: seq<string>, names: seq<string>, lines: seq<string>)
    requires names == CollectNames(lines)
    ensures forall j :: 0 <= j < |names| ==> Known(ImportPlayers(roster, names).1, names[j])
  {
    forall j | 0 <= j < |names|
      ensures Known(ImportPlayers(roster, names).1, names[j])
    {
      StripIdempotent(lines[j]);
    }
  }

  /** The target size asked for in `create_pods`: a number is clamped into
      `[3, maxPodSize]`; a non-number (`None`) falls back to the default. */
  function RequestedPodSize(config: Config, input: Option<int>): (r: int)
    ensures input.None? ==> r == config.defaultPodSize
    ensures input.Some? ==> r >= MinPodSize
    ensures input.Some? && config.maxPodSize >= MinPodSize ==> r <= config.maxPodSize
    ensures input.Some? && MinPodSize <= input.value <= config.maxPodSize ==> r == input.value
    ensures input.Some? && (input.value < MinPodSize || config.maxPodSize < MinPodSize) ==> r == MinPodSize
    ensures input.Some? && input.value > config.maxPodSize >= MinPodSize ==> r == config.maxPodSize
  {
    match input
    case Some(v) => Clamp(MinPodSize, v, config.maxPodSize)
    case None => config.defaultPodSize
  }

  /** Settings, option 1: a number is clamped into `[3, 8]` and stored; a
      non-number leaves the configuration unchanged. */
  function SetDefaultPodSize(config: Config, input: Option<int>): (r: Config)
    ensures input.None? ==> r == config
    ensures input.Some? ==> 3 <= r.defaultPodSize <= 8 && r == config.(defaultPodSize := r.defaultPodSize)
    ensures input.Some? && 3 <= input.value <= 8 ==> r.defaultPodSize == input.value
    ensures input.Some? && input.value < 3 ==> r.defaultPodSize == 3
    ensures input.Some? && input.value > 8 ==> r.defaultPodSize == 8
  {
    match input
    case Some(v) => config.(defaultPodSize := Clamp(3, v, 8))
    case None => config
  }

  /** Settings, option 2: a number is clamped into `[4, 8]` and stored. */
  function SetMaxPodSize(config: Config, input: Option<int>): (r: Config)
    ensures input.None? ==> r == config
    ensures input.Some? ==> 4 <= r.maxPodSize <= 8 && r == config.(maxPodSize := r.maxPodSize)
    ensures input.Some? && 4 <= input.value <= 8 ==> r.maxPodSize == input.value
    ensures input.Some? && input.value < 4 ==> r.maxPodSize == 4
    ensures input.Some? && input.value > 8 ==> r.maxPodSize == 8
  {
    match input
    case Some(v) => config.(maxPodSize := Clamp(4, v, 8))
    case None => config
  }

  /** Settings, option 3: flip whether assignments are recorded. */
  function ToggleKeepHistory(config: Config): (r: Config)
    ensures r.keepHistory != config.keepHistory
    ensures r == config.(keepHistory := r.keepHistory)
  {
    config.(keepHistory := !config.keepHistory)
  }

  /** The state the front end works on: roster, randomizer, configuration
      and stored history. */
  datatype App = App(roster: seq<string>, randomizer: PodRandomizer, config: Config,
                     history: seq<HistoryEntry>)

  /** What a pod request ends in: refused for too few players, an uncaught
      error from the distributor, or the created pods. */
  datatype PodOutcome = NotEnoughPlayers | Crashed(error: Error) | Created(pods: seq<Pod>)

  /** The part shared by `create_pods` and `quick_randomize` once the guard
      has passed: distribute, then record the entry if history is kept. */
  function RandomizeAndRecord(app: App, podSize: int, shuffled: seq<string>, timestamp: string)
    : (r: (PodOutcome, App))
    requires multiset(shuffled) == multiset(app.roster) && |app.roster| >= MinPodSize
    ensures r.0.NotEnoughPlayers? == false
    ensures r.0.Crashed? <==> app.config.maxPodSize == 0
    ensures r.0.Crashed? ==> r.1 == app
    ensures r.0.Created? ==> Members(r.0.pods) == shuffled && |r.0.pods| > 0
    ensures r.0.Created? ==> multiset(Members(r.0.pods)) == multiset(app.roster) && SizesMatch(r.0.pods)
    ensures r.0.Created? ==> r.1.roster == app.roster && r.1.config == app.config
    ensures r.0.Created? ==> r.1.randomizer.history == app.randomizer.history + [r.0.pods]
    ensures r.0.Created? && app.config.keepHistory
            ==> r.1.history == SaveToHistory(app.history, HistoryEntry(timestamp, r.0.pods), app.config.maxHistoryItems)
    ensures r.0.Created? && !app.config.keepHistory ==> r.1.history == app.history
  {
    var res := app.randomizer.CreatePods(app.roster, shuffled, podSize, app.config.maxPodSize);
    match res.0
    case Err(e) => (Crashed(e), app)
    case Ok(pods) =>
      var history := if app.config.keepHistory
                     then SaveToHistory(app.history, HistoryEntry(timestamp, pods), app.config.maxHistoryItems)
                     else app.history;
      (Created(pods), app.(randomizer := res.1, history := history))
  }

  /** `create_pods`: refused without running the distributor when fewer
      than 3 players exist; otherwise the typed size (or the default) is
      used. */
  function CreatePodsCommand(app: App, input: Option<int>, shuffled: seq<string>, timestamp: string)
    : (r: (PodOutcome, App))
    requires multiset(shuffled) == multiset(app.roster)
    ensures r.0.NotEnoughPlayers? <==> |app.roster| < MinPodSize
    ensures r.0.NotEnoughPlayers? ==> r.1 == app
    ensures |app.roster| >= MinPodSize ==> (r.0.Created? <==> app.config.maxPodSize != 0)
    ensures r.0.Created? ==> multiset(Members(r.0.pods)) == multiset(app.roster) && SizesMatch(r.0.pods)
    ensures |app.roster| >= MinPodSize ==>
              r == RandomizeAndRecord(app, RequestedPodSize(app.config, input), shuffled, timestamp)
  {
    if |app.roster| < MinPodSize then (NotEnoughPlayers, app)
    else RandomizeAndRecord(app, RequestedPodSize(app.config, input), shuffled, timestamp)
  }

  /** `quick_randomize`: the same guard, with the configured default size. */
  function QuickRandomizeCommand(app: App, shuffled: seq<string>, timestamp: string)
    : (r: (PodOutcome, App))
    requires multiset(shuffled) == multiset(app.roster)
    ensures r.0.NotEnoughPlayers? <==> |app.roster| < MinPodSize
    ensures r.0.NotEnoughPlayers? ==> r.1 == app
    ensures |app.roster| >= MinPodSize ==> (r.0.Created? <==> app.config.maxPodSize != 0)
    ensures r.0.Created? ==> multiset(Members(r.0.pods)) == multiset(app.roster) && SizesMatch(r.0.pods)
    ensures |app.roster| >= MinPodSize ==>
              r == RandomizeAndRecord(app, app.config.defaultPodSize, shuffled, timestamp)
  {
    if |app.roster| < MinPodSize then (NotEnoughPlayers, app)
    else RandomizeAndRecord(app, app.config.defaultPodSize, shuffled, timestamp)
  }

  /** With a maximum of at least 3 and enough players, both commands
      create `ceil(n / maxPodSize)` pods numbered from 1, none above the
      maximum, holding every roster player once. */
  lemma CommandsRespectMaximum(app: App, input: Option<int>, shuffled: seq<string>, timestamp: string)
    requires multiset(shuffled) == multiset(app.roster)
    requires |app.roster| >= MinPodSize && app.config.maxPodSize >= MinPodSize
    ensures var r := CreatePodsCommand(app, input, shuffled, timestamp);
            && r.0.Created?
            && |r.0.pods| == MinPods(|app.roster|, app.config.maxPodSize)
            && SequentialIds(r.0.pods)
            && WithinMax(r.0.pods, app.config.maxPodSize)
    ensures var q := QuickRandomizeCommand(app, shuffled, timestamp);
            && q.0.Created?
            && |q.0.pods| == MinPods(|app.roster|, app.config.maxPodSize)
            && SequentialIds(q.0.pods)
            && WithinMax(q.0.pods, app.config.maxPodSize)
  {
    var m := app.config.maxPodSize;
    PodsProofs.CreatePodsBalanced(app.randomizer, app.roster, shuffled, RequestedPodSize(app.config, input), m);
    PodsProofs.CreatePodsBalanced(app.randomizer, app.roster, shuffled, app.config.defaultPodSize, m);
  }

  /** With history kept and a non-negative history limit, a created
      assignment is the newest stored entry, and the history view lists it
      first with every roster player counted once. (A negative limit drops
      entries from the front and can leave nothing to show.) */
  lemma CreatedAssignmentHeadsTheView(app: App, input: Option<int>, shuffled: seq<string>, timestamp: string)
    requires multiset(shuffled) == multiset(app.roster)
    requires app.config.keepHistory && app.config.maxHistoryItems >= 0
    requires |app.roster| >= MinPodSize && app.config.maxPodSize != 0
    ensures var r := CreatePodsCommand(app, input, shuffled, timestamp);
            var view := HistoryView(r.1.history);
            && r.0.Created?
            && |view| > 0
            && view[0].number == 1
            && view[0].podCount == |r.0.pods|
            && view[0].playerCount == |app.roster|
  {
    var r := CreatePodsCommand(app, input, shuffled, timestamp);
    assert |shuffled| == |multiset(shuffled)| == |app.roster|;
    var h := r.1.history;
    assert h[|h| - 1] == HistoryEntry(timestamp, r.0.pods);
  }
}

=== FILE: text.dfy ===
/** The string operations the roster relies on: Python's `str.strip()`,
    `str.lower()` and the substring test `q in s`. */
module Text {

  /** Python's `str.isspace` for a single character: the ASCII controls
      TAB..CR, the separators FS..US, SPACE, and the Unicode space
      separators and line/paragraph separators. */
  predicate IsSpace(c: char)
  {
    || ('\t' <= c <= '\r')
    || ('\U{1C}' <= c <= ' ')
    || c == '\U{85}' || c == '\U{A0}' || c == '\U{1680}'
    || ('\U{2000}' <= c <= '\U{200A}')
    || c == '\U{2028}' || c == '\U{2029}' || c == '\U{202F}' || c == '\U{205F}' || c == '\U{3000}'
  }

  /** Drops leading whitespace: the result is the suffix of `s` that starts
      at the first non-space character. */
  function TrimLeft(s: string): (r: string)
    ensures |r| <= |s| && r == s[|s| - |r|..]
    ensures forall j :: 0 <= j < |s| - |r| ==> IsSpace(s[j])
    ensures |r| > 0 ==> !IsSpace(r[0])
  {
    if |s| > 0 && IsSpace(s[0]) then TrimLeft(s[1..]) else s
  }

  /** Drops trailing whitespace: the result is the prefix of `s` that ends
      at the last non-space character. */
  function TrimRight(s: string): (r: string)
    ensures |r| <= |s| && r == s[..|r|]
    ensures forall j :: |r| <= j < |s| ==> IsSpace(s[j])
    ensures |r| > 0 ==> !IsSpace(r[|r| - 1])
  {
    if |s| > 0 && IsSpace(s[|s| - 1]) then TrimRight(s[..|s| - 1]) else s
  }

  /** `s` with every character space. */
  predicate AllSpace(s: string)
  {
    forall j :: 0 <= j < |s| ==> IsSpace(s[j])
  }

  /** Every character of `s` before position `a` and from position `b` on
      is whitespace. */
  predicate SpaceOutside(s: string, a: int, b: int)
  {
    && (forall j :: 0 <= j < a && j < |s| ==> IsSpace(s[j]))
    && (forall j :: b <= j < |s| && 0 <= j ==> IsSpace(s[j]))
  }

  /** `r` is the part of `s` at position `a`, with only whitespace around
      it. */
  predicate StrippedAt(s: string, a: int, r: string)
  {
    0 <= a <= |s| - |r| && r == s[a..a + |r|] && SpaceOutside(s, a, a + |r|)
  }

  /** Python's `s.strip()`: the contiguous part of `s` between the leading
      and the trailing whitespace. A non-empty result starts and ends with a
      non-space; `StripIsTrimmedSlice` states where it sits in `s`. */
  function Strip(s: string): (r: string)
    ensures |r| <= |s|
    ensures |r| > 0 ==> !IsSpace(r[0]) && !IsSpace(r[|r| - 1])
  {
    TrimRight(TrimLeft(s))
  }

  /** The result of `Strip` is a slice of `s` with only whitespace around
      it, and it is empty exactly when `s` is all whitespace. */
  lemma StripIsTrimmedSlice(s: string)
    ensures exists a :: StrippedAt(s, a, Strip(s))
    ensures |Strip(s)| == 0 <==> AllSpace(s)
  {
    StripWitness(s, TrimLeft(s), Strip(s));
  }

  lemma StripWitness(s: string, left: string, r: string)
    requires left == TrimLeft(s) && r == TrimRight(left)
    ensures StrippedAt(s, |s| - |left|, r)
    ensures |r| == 0 <==> AllSpace(s)
  {
    var a := |s| - |left|;
    StripSlice(s, left, r);
    StripTrailing(s, left, r);
    assert SpaceOutside(s, a, a + |r|);
    if |r| > 0 {
      assert r[0] == s[a];
    }
  }

  lemma StripSlice(s: string, left: string, r: string)
    requires |left| <= |s| && left == s[|s| - |left|..]
    requires |r| <= |left| && r == left[..|r|]
    ensures r == s[|s| - |left|..|s| - |left| + |r|]
  {
  }

  lemma StripTrailing(s: string, left: string, r: string)
    requires |left| <= |s| && left == s[|s| - |left|..]
    requires |r| <= |left|
    requires forall j :: |r| <= j < |left| ==> IsSpace(left[j])
    ensures forall j :: |s| - |left| + |r| <= j < |s| ==> IsSpace(s[j])
  {
    var a := |s| - |left|;
    forall j | a + |r| <= j < |s|
      ensures IsSpace(s[j])
    {
      assert s[j] == left[j - a];
    }
  }

  /** Python's `str.lower()` on one character (ASCII letters only). */
  function LowerChar(c: char): (d: char)
    ensures !('A' <= d <= 'Z')
    ensures !('A' <= c <= 'Z') ==> d == c
  {
    if 'A' <= c <= 'Z' then (c as int - 'A' as int + 'a' as int) as char else c
  }

  /** Python's `str.lower()`, character by character. */
  function Lower(s: string): (r: string)
    ensures |r| == |s|
    ensures forall j :: 0 <= j < |r| ==> !('A' <= r[j] <= 'Z')
    ensures forall j :: 0 <= j < |s| && 'A' <= s[j] <= 'Z' ==> r[j] as int == s[j] as int + 32
    ensures forall j :: 0 <= j < |s| && !('A' <= s[j] <= 'Z') ==> r[j] == s[j]
  {
    seq(|s|, j requires 0 <= j < |s| => LowerChar(s[j]))
  }

  /** Python's `q in s` for strings: `q` occurs in `s` at some position. */
  function Contains(q: string, s: string): bool
  {
    q <= s || (|s| > 0 && Contains(q, s[1..]))
  }

  /** `q` occurs at position `i` of `s`. */
  predicate OccursAt(q: string, s: string, i: int)
  {
    0 <= i <= |s| - |q| && s[i..i + |q|] == q
  }

  /** `Contains` holds exactly when `q` occurs at some position of `s`. */
  lemma {:induction false} ContainsIffOccurs(q: string, s: string)
    ensures Contains(q, s) <==> exists i :: OccursAt(q, s, i)
    decreases |s|
  {
    if q <= s {
      assert OccursAt(q, s, 0);
    } else if |s| == 0 {
    } else {
      ContainsIffOccurs(q, s[1..]);
      if exists i :: OccursAt(q, s[1..], i) {
        var i :| OccursAt(q, s[1..], i);
        assert s[1..][i..i + |q|] == s[i + 1..i + 1 + |q|];
        assert OccursAt(q, s, i + 1);
      }
      if exists i :: OccursAt(q, s, i) {
        var i :| OccursAt(q, s, i);
        assert i != 0;
        assert s[1..][i - 1..i - 1 + |q|] == s[i..i + |q|];
        assert OccursAt(q, s[1..], i - 1);
      }
    }
  }

  /** Stripping twice changes nothing. */
  lemma StripIdempotent(s: string)
    ensures Strip(Strip(s)) == Strip(s)
  {
    var r := Strip(s);
    if |r| > 0 {
      assert TrimLeft(r) == r;
      assert TrimRight(r) == r;
    }
  }
}

=== FILE: wrappers.dfy ===
/** Option and Result, used where the modelled Python code returns `None`
    or raises an exception. */
module Wrappers {

  datatype Option<+T> = None | Some(value: T)

  datatype Result<+R, +E> = Ok(value: R) | Err(error: E)
}
